=== FILE: README.md ===
# slack-exporter in Dafny

A functional model of the exporter in `main.py`. It lists the workspace's
public channels, crawls the history of every non-archived channel together
with the replies of each thread, and normalises each record into a `Message`.
Messages are deduplicated in a run-wide dictionary keyed by
`(channel_id, ts)`, where the first record seen for a key wins. The run then
exports the dictionary either as two CSV files or into three SQL tables. The
tables are written by primary-key upserts: each batch is committed, or
rolled back on error.

The model is pure. Records, messages, rows and tables are immutable values.
The run store is an insertion-ordered dictionary: a subset type whose
invariant says the order lists each key once. Each table is a `map` from
primary key to non-key columns. The Slack API is a finite sequence of given
responses per call site, so every loop of the crawler is a fold over data.

Modules, in dependency order:

| file | module | what it covers |
|---|---|---|
| `basics.dfy` | `Basics` | `Option`, `Result` |
| `records.dfy` | `Records` | raw records, `Message`/`Reaction`, normalisation (`process_message` without the insert) |
| `run_store.dfy` | `RunStore` | the `message_data` dictionary and `process_message` |
| `rows.dfy` | `Rows` | the row builders of both exports, and the reaction flattening |
| `upsert.dfy` | `Upsert` | the generic look-up-then-insert-or-update loop of the `Db.insert_*` methods |
| `database.dfy` | `Database` | the three tables, the three upserts, `write_channel_data_for_database` |
| `paging.dfy` | `Paging` | `get_channels` (cursor loop) and `get_channel_history` (`has_more`/`oldest` loop, join and retry) |
| `crawl.dfy` | `Crawl` | `process_channel`, `create_messages_and_reactions`, and the two exports |

**Timestamps.** `float(ts)` followed by `datetime.fromtimestamp` is an
uninterpreted parameter `parse: string -> Option<Instant>`. `None` stands
for the `ValueError` that `float` raises. Nothing is assumed about `parse`,
not even injectivity. Deduplication compares converted instants. The rule
that skips a thread root among its replies compares raw `ts` texts. The
model keeps the two comparisons apart.

**Exceptions.** The crawl and the upserts handle only `SlackApiError` and
`SQLAlchemyError`; the `Exception` handler in `Db.__init__` only logs and
re-raises a connection failure, and the connection is left out. Three other
exceptions escape and abort the whole run, and they are modelled as a `Fault`:
- a `ValueError` from `float`;
- an `IndexError` at `messages[-1]["ts"]`, when a page with `has_more`
  arrives before any message was gathered;
- a `KeyError` at the same place, when the last message has no `ts`.

**Behaviour worth noting.**
- A `not_in_channel` error is retried after a join with no retry counter, so
  the retry is unbounded, not "once".
- Replies are fetched with a single call per thread, without pagination.
- A reply records its own `reply_count`, or 0 when the field is missing; it
  is not forced to 0.
- A history error other than `not_in_channel` ends the loop but returns the
  messages gathered so far, and `process_channel` processes them.

## Model

| member | source | states |
|---|---|---|
| Records.NormalizeReactions | main.py:156-160 | one reaction per raw reaction, in order, with the same name and count; a missing `users` list becomes the empty list |
| Records.MissingTsFails | main.py:145 | a record without `ts` is read as the empty text, so under a conversion that rejects "" it fails with that text |
| Records.Normalize | main.py:144-160 | fails exactly when `ts` (missing read as "") or a non-empty `thread_ts` does not convert; the message carries the converted key, the channel name, `user`/`text` defaulting to "", `thread_ts` None exactly when missing or empty, `reply_count` defaulting to 0, and the reactions with their defaults |
| RunStore.Empty | main.py:331 | the run starts from a dictionary with no entries |
| RunStore.Entries | main.py:106 | iterating the dictionary yields each stored message once, in insertion order: a message is yielded exactly when it is a stored value, and no two yielded messages share a key |
| RunStore.Insert | main.py:162-164 | the key set gains exactly the message's key; no existing entry changes (the first record wins); a new key is appended to the iteration order, and an existing key leaves the order as it was |
| RunStore.ProcessMessage | main.py:144-164 | fails exactly when normalisation fails; on success it adds exactly the record's `(channel_id, ts)` key, leaves every other entry unchanged, and changes nothing when the key is already present; a new key holds the normalised message and is appended to the iteration order |
| RunStore.ProcessMessageIdempotent | main.py:162-164 | processing the same raw record a second time leaves the dictionary as it was |
| RunStore.EntryCount | main.py:106 | the number of entries equals the length of the iteration order |
| Rows.ReactionBlock | main.py:109-110 | one triple per listed user of a reaction, in list order; a triple is produced exactly when it names that message and reaction and a user listed for it |
| Rows.FlatComplete | main.py:106-110 | every (stored message, reaction of it, listed user) triple is among the flattened reaction triples of the run |
| Rows.FlatsForCount | main.py:108-110 | a message yields as many reaction rows as users are listed over its reactions |
| Rows.FlatsForBlock | main.py:108-110 | the rows of reaction `i` are one contiguous block, one per listed user; a reaction with no users yields none |
| Rows.FlatsForMembers | main.py:128-137 | a triple is produced for a message exactly when it names one of the message's reactions and a user listed for it |
| Rows.FlatsForAppend | main.py:108 | flattening distributes over concatenation of the reaction list |
| Rows.AllFlatsCount | main.py:106-110 | over a sequence of messages, the reaction rows number the sum of the listed users |
| Rows.AllFlatsMembers | main.py:119-137 | a triple is produced exactly when it names one of the messages, one of its reactions and a listed user |
| Rows.CsvMessageLines | main.py:103-107 | the messages file holds the fixed seven-column header, then exactly one line per dictionary entry, in insertion order, carrying that message's columns; every stored message has its line |
| Rows.CsvReactionLines | main.py:104-110 | the reactions file holds the fixed header, then one line per (reaction, listed user) pair; every stored message's every reaction yields a line for each of its listed users, carrying the message's and the reaction's columns |
| Rows.DbMessageRows | main.py:119-127 | one message row per dictionary entry, in insertion order, keyed by that entry's key and carrying its columns |
| Rows.DbReactionRows | main.py:128-137 | one reaction row per (reaction, listed user) pair; every stored message's every reaction yields a row for each of its listed users, carrying the message's and the reaction's columns |
| Rows.ReactionRowsFaithful | main.py:128-137 | every reaction row carries a stored message's channel, `ts` and author, and a reaction of it whose `count` it copies and whose user list holds the row's user; the CSV line at the same position agrees |
| Upsert.UpsertRow | main.py:184-193 | one look-up: the key is present afterwards and every other key is unchanged |
| Upsert.KeysOfMembers | main.py:183 | the keys of a batch are exactly those of its rows |
| Upsert.ApplyRowsFrame | main.py:183-193 | a batch adds exactly the keys it mentions and leaves every other key unchanged |
| Upsert.ApplyRowsValue | main.py:183-193 | a mentioned key ends with its last row's overwritten columns applied over its old row, or over the first batch row that inserted it |
| Upsert.ApplyRowsIdempotent | main.py:183-193 | applying a batch twice gives the same table as applying it once |
| Upsert.LastFieldsAt | main.py:183 | a row with no later row of the same key is the last with that key |
| Upsert.FirstFieldsAt | main.py:183 | a row with no earlier row of the same key is the first with that key |
| Upsert.InsertBatch | main.py:179-198 | an empty batch is skipped and changes nothing; a failing batch is rolled back and changes nothing; a committed batch adds exactly its keys and leaves other keys unchanged |
| Database.OverwritesObeyLaws | main.py:186-190 | each of the three updates obeys the laws that a later overwrite subsumes an earlier one, and that overwriting with itself changes nothing |
| Database.MessageBatchKeys | main.py:184 | the primary keys of a message batch are `(channel_id, ts)` of its rows |
| Database.MessageBatchValues | main.py:186-190 | after the loop, the last row with a key decides all four non-key columns |
| Database.InsertMessageData | main.py:178-198 | skip on an empty batch, rollback with the table unchanged on error; after a commit, the keys are the old keys plus the batch's, every batch key holds the `user_id`/`text`/`thread_ts`/`reply_count` of its last row, and every other key is unchanged |
| Database.ReactionBatchKeys | main.py:206 | the primary keys of a reaction batch are `(channel_id, ts, reaction_name, reaction_user_id)` of its rows |
| Database.ReactionBatchCounts | main.py:208-209 | after the loop, the last row with a key decides its `reaction_count` |
| Database.ReactionBatchMessageUsers | main.py:208-212 | an existing reaction row keeps its `message_user_id`; a new key takes it from the first row that inserted it |
| Database.InsertReactionData | main.py:200-217 | skip and rollback as for messages; after a commit only `reaction_count` is overwritten on an existing key, new keys come from their first row, and other keys are unchanged |
| Database.ChannelBatchKeys | main.py:229 | the primary keys of a channel batch are the channel ids |
| Database.ChannelBatchNames | main.py:230-232 | after the loop, the last record with an id decides its `channel_name` |
| Database.InsertChannelData | main.py:219-240 | skip and rollback as for messages; after a commit the ids are the old ids plus the listed ones, each listed id holds the name of its last record, and other ids are unchanged |
| Database.InsertMessageDataIdempotent | main.py:178-198 | re-running a message batch over the table it produced changes nothing |
| Database.InsertReactionDataIdempotent | main.py:200-217 | re-running a reaction batch over the table it produced changes nothing |
| Database.InsertChannelDataIdempotent | main.py:219-240 | re-running a channel batch over the table it produced changes nothing |
| Database.DbMessageRowsDistinct | main.py:119-127 | the message rows of a run have distinct keys, since each comes from a distinct dictionary key |
| Database.RunMessagesStored | main.py:141 | a run's message batch that is not rolled back stores every message of the run under its key, with its own columns |
| Database.ChannelListStored | main.py:140 | a channel batch that is not rolled back leaves exactly the old ids plus the listed ones |
| Database.RunMessagesFrame | main.py:178-198 | a run's message batch that is not rolled back leaves exactly the old keys plus the run's, and every other stored message as it was |
| Database.RunReactionsStored | main.py:200-217 | a run's reaction batch that is not rolled back adds exactly the run's reaction keys; the last row of a key sets its count, an existing row keeps its message author, a new row takes the author of the first row with its key, and every other row is as it was |
| Database.WriteChannelDataForDatabase | main.py:115-142 | the flush fails exactly when a non-empty batch fails; the batches run channels, then messages, then reactions, and the first failure stops the rest; a failing channel batch leaves every table as it was, a failing message batch leaves messages and reactions as they were, any failure leaves reactions as they were; a committed channel batch stays committed whatever follows, with the old ids plus the listed ones, the last record of an id setting its name and unlisted ids unchanged; a committed message batch likewise stores every run message with its own columns and leaves other messages unchanged; with no failure the reaction keys are the old plus the run's, the last row of a key sets its count, an existing row keeps its message author, a new row takes the author of the first row with its key, and other reaction rows are untouched |
| Paging.ListFrom | main.py:261-274 | one call per cursor, so no more calls than responses |
| Paging.ListFromPages | main.py:258-275 | the listing is the concatenation of the channels of the pages received; every page before the last had a non-empty `next_cursor`; the loop stops after a page without one or after an error; the first call has no cursor and each later call uses the previous page's `next_cursor` |
| Paging.ConcatChannelsPrefix | main.py:268 | concatenating a prefix of pages is the first page's channels followed by the rest |
| Paging.TwoPageListing | main.py:258-275 | two pages linked by a cursor, where the second has an empty cursor, give the concatenated channels after two calls |
| Paging.ConcatMessagesPrefix | main.py:287 | concatenating a prefix of pages is the first page's messages followed by the rest |
| Paging.HistoryFromCalls | main.py:277-300 | the loop makes one call per response it consumes; it stops with no more pages after a page without `has_more`, abandons on an error other than `not_in_channel`, and runs out only after consuming every response; every call but the last was answered by a page with `has_more` or by `not_in_channel` |
| Paging.HistoryFromRaisesOn | main.py:287-290 | the loop raises exactly when its last call got a page with `has_more` and the returned messages give no `ts` to resume from; the fault is the `IndexError` when there are none and the `KeyError` otherwise |
| Paging.HistoryFromRaises | main.py:287-290 | the same, with the messages spelled out as those of every page received: raising depends on the last gathered message only |
| Paging.HistoryFromGathers | main.py:287-297 | the result is the concatenation of the pages received, errors contributing nothing, and one join per `not_in_channel` answer |
| Paging.HistoryFromResumes | main.py:288-290 | after a page with `has_more`, the next call's `oldest` is the `ts` of the last message gathered so far |
| Paging.HistoryFromRetriesSameBound | main.py:292-297 | after `not_in_channel`, the channel is joined and the next call repeats the same `oldest` |
| Paging.NotInChannelRetriesUnbounded | main.py:292-297 | `n` `not_in_channel` answers in a row lead to `n` joins and `n + 1` calls with the same `oldest`, for every `n`: the retry has no bound |
| Crawl.ProcessAll | main.py:308-309 | processing records in turn replaces no entry already stored (which record a new key holds is stated by Crawl.ProcessAllFirstWins) |
| Crawl.ProcessAllFirstWins | main.py:162-164 | the first record for a key wins across the whole run: a key new to the store holds the normalisation of the first record with that key, and no earlier record has it |
| Crawl.ProcessAllStoresEach | main.py:308-309 | after processing records in turn, every record's `(channel_id, ts)` key is stored |
| Crawl.ProcessAllAddsOnly | main.py:308-309 | processing records in turn adds no key other than those of the records |
| Crawl.ProcessAllFailsOnBadRecord | main.py:308-309 | processing records in turn fails only on a record whose timestamps do not convert |
| Crawl.ProcessAllNormalizesEach | main.py:308-309 | processing records in turn succeeds only when every record's timestamps convert |
| Crawl.ProcessAllAppend | main.py:308-309 | processing two runs of records in turn is processing the first, then the second from the store it left, and a failure in the first stops everything |
| Crawl.ProcessAllSummary | main.py:308-309 | on success every record is stored, every new key is a record's, and holds the normalisation of a record with that key; it succeeds exactly when every record normalises |
| Crawl.KeptRepliesMembers | main.py:321-323 | a reply is kept exactly when it is one of the replies and its raw `ts` differs from the root's `thread_ts` |
| Crawl.ProcessRepliesSkipsRoot | main.py:321-324 | the reply loop processes exactly the replies whose raw `ts` text differs from the root's `thread_ts`, in order |
| Crawl.ProcessHistoryIsProcessAll | main.py:308-324 | the message loop is `process_message` applied, in order, to each history message followed by the non-root replies of its thread when the replies call succeeded; it completes exactly when every threaded message found a replies answer and nothing failed |
| Crawl.HistoryRecordsHasMessage | main.py:308-311 | a history message is processed unless an earlier thread already ran out of replies answers |
| Crawl.HistoryRecordsHasReplies | main.py:311-324 | the non-root replies of a threaded message whose replies call succeeded are processed |
| Crawl.ProcessHistorySummary | main.py:308-324 | a completed loop stores every history message and every non-root reply of every successfully answered thread; every new key holds the normalisation of one of those records with that key; the loop crashes exactly when one of the records it processes does not normalise |
| Crawl.ProcessHistoryStoresThreads | main.py:311-324 | in a completed loop the i-th message, when threaded, had its own replies answer, and when that answer succeeded its non-root replies are stored |
| Crawl.ProcessHistory | main.py:308-324 | a completed loop replaces no stored entry and stores every history message's key; it completes only when every message with a `thread_ts` key had a replies answer, and runs out only when one had none (the replies stored and the cause of a crash are stated by Crawl.ProcessHistoryStoresThreads and Crawl.ProcessHistorySummary) |
| Crawl.ProcessChannel | main.py:302-324 | an escaping exception from the history loop aborts; after a normal stop or an abandoning API error the gathered messages are processed as the message loop does; when complete, every processed message and non-root reply is stored, every new key holds the normalisation, with the channel's id and name, of a processed record with that key, nothing earlier is replaced, and every processed record normalised; a crash is the history loop's own or a processed record that does not normalise |
| Crawl.ThreadRootStoredOnce | main.py:308-324 | a root returned again by its replies call is stored once, followed by its reply, which records `reply_count` 0 |
| Crawl.TwoUserReactionRows | main.py:103-110 | one message whose single reaction counts 2 with two listed users gives one message line and two reaction lines, each with count 2 |
| Crawl.ActiveChannelsMembers | main.py:334-340 | a channel record is kept exactly when a non-archived channel of the listing has its id and name |
| Crawl.AssignPairs | main.py:334-340 | with enough answers, the i-th non-archived channel is crawled with the i-th channel's answers and is the i-th entry of the channel list |
| Crawl.CrawlChannelsStores | main.py:334-342 | a completed crawl stores every record processed for every crawled channel, and every new key is the key of such a record |
| Crawl.CrawlChannelsContents | main.py:334-342 | in a completed crawl every new key holds the normalisation, with its channel's id and name, of a record processed for a crawled channel that has that key |
| Crawl.CrawlChannelsRunsOut | main.py:334-342 | a crawl runs out only when fewer channel answers are given than there are non-archived channels, or a crawled channel's history answers run out, or its history loop stops with more threaded messages than replies answers given |
| Crawl.CrawlChannelsCrashCause | main.py:334-342 | a crawl crashes only on a crawled channel whose history loop raised or one of whose processed records does not normalise |
| Crawl.CrawlChannels | main.py:334-342 | a completed crawl's channel list is exactly the non-archived channels in listing order; each consumes one channel's responses and archived ones consume none; nothing stored earlier is replaced |
| Crawl.CreateMessagesAndReactions | main.py:326-342 | the channel list is exactly the non-archived channels of the concatenated listing pages, in order; a completed run's store holds exactly the keys of the records processed for the crawled channels, each under the normalisation, with its channel's id and name, of such a record with that key; a crash names a crawled channel whose history loop raised or one of whose records does not normalise; the run runs out only when the listing is unfinished, fewer channel answers are given than there are non-archived channels, or a crawled channel's history or replies answers run out |
| Crawl.ExportDataToCsv | main.py:348-350 | files are written exactly when the crawl completes; they are the two row builders applied to the crawled store: a header and one line per stored message with its columns, and a header and one line per (message, reaction, listed user), every stored message and every listed reacting user having its line |
| Crawl.ExportDataToDatabase | main.py:344-346 | the tables are written exactly when the crawl completes, and the flush is of exactly the crawled store and channel list; it fails exactly when a non-empty batch meets a store error; without one every stored message is in the messages table with its columns and every listed channel id is in the channel table |

## Left out

- The Slack `WebClient` is replaced by given response sequences, one per call site. So is the `SlackApiError` construction. A run that needs more responses than given ends in a distinct outcome (`Exhausted`, `ResponsesExhausted`, an unfinished listing). That outcome marks the model's horizon and is not a behaviour of the program.
- `conversations_join` is assumed to succeed. An error it raises inside the `except` handler would escape the run; that is not modelled.
- The `oldest`/`latest` window passed to the history and replies calls, and its computation with `time.mktime`, are not modelled: the responses given are already those of the window.
- `time.sleep` between calls is left out: it is timing only.
- The SQLAlchemy engine, session creation and `create_all` are left out. The tables are maps, and a store error is an input per batch.
- The `String(20)`/`String(80)` column widths and `nullable` constraints are not modelled. A value that violates them would be a store error, which the model takes as an input.
- CSV file I/O (`write_csv`) and the pytz/strftime file names are left out. The files are sequences of lines.
- `float` and `datetime.fromtimestamp` are a parameter: they are floating point and time-zone dependent.
- Token loading, `exit()`, the argparse entry point and `print` logging are left out: they are I/O with no state the core reads.
- The module-level `bot` used in place of `self` for the replies call is treated as `self`.
- Missing `name` or `count` in a reaction, and missing `id`, `name` or `is_archived` in a channel, would raise `KeyError`. So would a page without `channels` or `response_metadata` (main.py:268-269), a history page without `messages` or `has_more` (main.py:287-288), and a replies answer without `messages` (main.py:321). The model makes these fields required rather than modelling those crashes. A missing `next_cursor` is read with `.get` and is modelled: it ends the listing.
- Crawl.CrawlChannelsRunsOut: gives the causes of running out but not the converse, because a channel that crashes first stops the crawl before a later channel's answers could run out.

=== FILE: basics.dfy ===
/**
  Small failure-carrying datatypes shared by the whole model: an optional value
  (a dictionary key that may be absent, a Python `None`) and the result of an
  operation that may raise.
 */
module Basics {

  /** A value that may be missing. */
  datatype Option<+T> = None | Some(value: T) {

    /** The carried value, or `default` when missing (Python's `dict.get(key, default)`). */
    function GetOr(default: T): T {
      match this
      case Some(v) => v
      case None => default
    }
  }

  /** The outcome of an operation that either produces a value or raises an error. */
  datatype Result<+T, +E> = Success(value: T) | Failure(error: E) {

    predicate IsFailure() {
      Failure?
    }

    function PropagateFailure<U>(): Result<U, E>
      requires Failure?
    {
      Failure(error)
    }

    function Extract(): T
      requires Success?
    {
      value
    }
  }
}

=== FILE: crawl.dfy ===
/**
  The crawl of main.py: `process_channel` (history, then the replies of every
  message carrying a `thread_ts`, skipping the thread root the replies
  endpoint returns again), `create_messages_and_reactions` (every
  non-archived channel in API order) and the two exports built on it.
  The API is the given sequence of responses for each call site; an uncaught
  exception aborts the whole run.
 */
module Crawl {
  import opened Basics
  import opened Records
  import opened RunStore
  import opened Paging
  import opened Rows
  import opened Database

  /** The answers the API gives for one channel: to its history calls, and to
      its `conversations_replies` calls, one per message carrying `thread_ts`. */
  datatype ChannelScript = ChannelScript(
    history: seq<ApiResult<HistoryPage>>,
    replies: seq<ApiResult<seq<RawMessage>>>)

  /** How a crawl step ends: with a value, with an uncaught exception, or
      because it needs an API answer beyond the given ones. */
  datatype Run<T> = Done(value: T) | Crashed(fault: Fault) | Exhausted

  // ---------------------------------------------------------------------------
  // processing a sequence of raw records

  /** `process_message` on each record in turn; the first failure propagates.
      Earlier records win: nothing already stored is replaced. */
  function ProcessAll(msgs: seq<RawMessage>, channelId: string, channelName: string, parse: TimestampParser,
                      d: MessageData): (r: Result<MessageData, Fault>)
    ensures r.Success? ==> forall k :: k in d.entries ==> k in r.value.entries && r.value.entries[k] == d.entries[k]
    decreases |msgs|
  {
    if |msgs| == 0 then Success(d)
    else match ProcessMessage(d, msgs[0], channelId, channelName, parse)
      case Failure(f) => Failure(f)
      case Success(d1) => ProcessAll(msgs[1..], channelId, channelName, parse, d1)
  }

  /** After processing records in turn, every record's key is stored. */
  lemma {:induction false} ProcessAllStoresEach(msgs: seq<RawMessage>, channelId: string, channelName: string,
                                                parse: TimestampParser, d: MessageData)
    requires ProcessAll(msgs, channelId, channelName, parse, d).Success?
    ensures var r := ProcessAll(msgs, channelId, channelName, parse, d).value;
      forall i :: 0 <= i < |msgs| ==>
        parse(TsText(msgs[i])).Some? && MessageKey(channelId, parse(TsText(msgs[i])).value) in r.entries
    decreases |msgs|
  {
    if |msgs| > 0 {
      var d1 := ProcessMessage(d, msgs[0], channelId, channelName, parse).value;
      ProcessAllStoresEach(msgs[1..], channelId, channelName, parse, d1);
      forall i | 1 <= i < |msgs|
        ensures msgs[i] == msgs[1..][i - 1]
      {
      }
    }
  }

  /** Processing records in turn adds no key other than theirs. */
  lemma {:induction false} ProcessAllAddsOnly(msgs: seq<RawMessage>, channelId: string, channelName: string,
                                              parse: TimestampParser, d: MessageData)
    requires ProcessAll(msgs, channelId, channelName, parse, d).Success?
    ensures var r := ProcessAll(msgs, channelId, channelName, parse, d).value;
      forall k :: k in r.entries ==>
        k in d.entries || (k.channelId == channelId && exists i :: 0 <= i < |msgs| && parse(TsText(msgs[i])) == Some(k.ts))
    decreases |msgs|
  {
    if |msgs| > 0 {
      var d1 := ProcessMessage(d, msgs[0], channelId, channelName, parse).value;
      var r := ProcessAll(msgs, channelId, channelName, parse, d).value;
      ProcessAllAddsOnly(msgs[1..], channelId, channelName, parse, d1);
      forall k | k in r.entries
        ensures k in d.entries || (k.channelId == channelId && exists i :: 0 <= i < |msgs| && parse(TsText(msgs[i])) == Some(k.ts))
      {
        if k !in d1.entries {
          var i :| 0 <= i < |msgs[1..]| && parse(TsText(msgs[1..][i])) == Some(k.ts);
          assert msgs[i + 1] == msgs[1..][i];
        }
      }
    }
  }

  /** Processing records in turn fails only on a record whose timestamps do not convert. */
  lemma {:induction false} ProcessAllFailsOnBadRecord(msgs: seq<RawMessage>, channelId: string, channelName: string,
                                                      parse: TimestampParser, d: MessageData)
    requires ProcessAll(msgs, channelId, channelName, parse, d).Failure?
    ensures exists i :: 0 <= i < |msgs| && Normalize(msgs[i], channelId, channelName, parse).Failure?
    decreases |msgs|
  {
    match ProcessMessage(d, msgs[0], channelId, channelName, parse)
    case Failure(_) =>
      assert Normalize(msgs[0], channelId, channelName, parse).Failure?;
    case Success(d1) =>
      ProcessAllFailsOnBadRecord(msgs[1..], channelId, channelName, parse, d1);
      var i :| 0 <= i < |msgs[1..]| && Normalize(msgs[1..][i], channelId, channelName, parse).Failure?;
      assert msgs[i + 1] == msgs[1..][i];
  }

  /** Processing records in turn succeeds only when every record normalises:
      a record whose key is already stored is still converted first, and raises. */
  lemma {:induction false} ProcessAllNormalizesEach(msgs: seq<RawMessage>, channelId: string, channelName: string,
                                                    parse: TimestampParser, d: MessageData)
    requires ProcessAll(msgs, channelId, channelName, parse, d).Success?
    ensures forall x :: x in msgs ==> Normalize(x, channelId, channelName, parse).Success?
    decreases |msgs|
  {
    if |msgs| > 0 {
      var d1 := ProcessMessage(d, msgs[0], channelId, channelName, parse).value;
      ProcessAllNormalizesEach(msgs[1..], channelId, channelName, parse, d1);
      forall x | x in msgs ensures Normalize(x, channelId, channelName, parse).Success? {
        if x != msgs[0] {
          var i :| 0 <= i < |msgs| && msgs[i] == x;
          assert x == msgs[1..][i - 1];
        }
      }
    }
  }

  /** The first record of `msgs[1..]` with timestamp `ts`, when the head does
      not have it, is the first record of `msgs` with it, one place further on. */
  lemma FirstMatchAfterHead(msgs: seq<RawMessage>, parse: TimestampParser, ts: Instant, i: int)
    requires 0 <= i < |msgs| - 1
    requires parse(TsText(msgs[0])) != Some(ts)
    requires forall j :: 0 <= j < i ==> parse(TsText(msgs[1..][j])) != Some(ts)
    ensures msgs[i + 1] == msgs[1..][i]
    ensures forall j :: 0 <= j < i + 1 ==> parse(TsText(msgs[j])) != Some(ts)
  {
    forall j | 0 < j < i + 1 ensures parse(TsText(msgs[j])) != Some(ts) {
      assert msgs[j] == msgs[1..][j - 1];
    }
  }

  /** The first record wins: a key new to `d` holds the normalisation of the
      first record that has it, and of no later one. */
  lemma {:induction false} ProcessAllFirstWins(msgs: seq<RawMessage>, channelId: string, channelName: string,
                                               parse: TimestampParser, d: MessageData)
    requires ProcessAll(msgs, channelId, channelName, parse, d).Success?
    ensures var r := ProcessAll(msgs, channelId, channelName, parse, d).value;
      forall k :: k in r.entries && k !in d.entries ==>
        && k.channelId == channelId
        && exists i :: 0 <= i < |msgs| && parse(TsText(msgs[i])) == Some(k.ts)
             && (forall j :: 0 <= j < i ==> parse(TsText(msgs[j])) != Some(k.ts))
             && Normalize(msgs[i], channelId, channelName, parse) == Success(r.entries[k])
    decreases |msgs|
  {
    if |msgs| > 0 {
      var d1 := ProcessMessage(d, msgs[0], channelId, channelName, parse).value;
      var r := ProcessAll(msgs, channelId, channelName, parse, d).value;
      var key0 := MessageKey(channelId, parse(TsText(msgs[0])).value);
      ProcessAllFirstWins(msgs[1..], channelId, channelName, parse, d1);
      forall k | k in r.entries && k !in d.entries
        ensures && k.channelId == channelId
                && exists i :: 0 <= i < |msgs| && parse(TsText(msgs[i])) == Some(k.ts)
                     && (forall j :: 0 <= j < i ==> parse(TsText(msgs[j])) != Some(k.ts))
                     && Normalize(msgs[i], channelId, channelName, parse) == Success(r.entries[k])
      {
        if k in d1.entries {
          assert k == key0 && r.entries[k] == d1.entries[k];
        } else {
          var i :| 0 <= i < |msgs[1..]| && parse(TsText(msgs[1..][i])) == Some(k.ts)
            && (forall j :: 0 <= j < i ==> parse(TsText(msgs[1..][j])) != Some(k.ts))
            && Normalize(msgs[1..][i], channelId, channelName, parse) == Success(r.entries[k]);
          assert k != key0;
          FirstMatchAfterHead(msgs, parse, k.ts, i);
        }
      }
    }
  }

  /** Message `m`, stored under key `k`, is the normalisation in channel
      `channelId` of one of `records` that has that key. */
  ghost predicate StoredFrom(k: MessageKey, m: Message, channelId: string, channelName: string,
                             records: seq<RawMessage>, parse: TimestampParser) {
    k.channelId == channelId &&
    exists x :: x in records && parse(TsText(x)) == Some(k.ts) && Normalize(x, channelId, channelName, parse) == Success(m)
  }

  /** Processing `a + b` is processing `a`, then `b` from where `a` left the store. */
  lemma {:induction false} ProcessAllAppend(a: seq<RawMessage>, b: seq<RawMessage>, channelId: string,
                                            channelName: string, parse: TimestampParser, d: MessageData)
    ensures ProcessAll(a + b, channelId, channelName, parse, d) ==
      match ProcessAll(a, channelId, channelName, parse, d)
      case Failure(f) => Failure(f)
      case Success(v) => ProcessAll(b, channelId, channelName, parse, v)
    decreases |a|
  {
    if |a| == 0 {
      assert a + b == b;
    } else {
      assert (a + b)[0] == a[0] && (a + b)[1..] == a[1..] + b;
      match ProcessMessage(d, a[0], channelId, channelName, parse)
      case Failure(_) =>
      case Success(d1) =>
        ProcessAllAppend(a[1..], b, channelId, channelName, parse, d1);
    }
  }

  /** Every record of `records` has its key stored in `d`. */
  ghost predicate AllStored(records: seq<RawMessage>, channelId: string, parse: TimestampParser, d: MessageData) {
    forall x :: x in records ==>
      parse(TsText(x)).Some? && MessageKey(channelId, parse(TsText(x)).value) in d.entries
  }

  /** Key `k` is the key of one of `records`, read in channel `channelId`. */
  ghost predicate KeyFrom(k: MessageKey, channelId: string, records: seq<RawMessage>, parse: TimestampParser) {
    k.channelId == channelId && exists x :: x in records && parse(TsText(x)) == Some(k.ts)
  }

  /** What processing records in turn promises, by membership: on success every
      record is stored, nothing stored is replaced and every new key is a
      record's; it fails exactly when some record does not normalise. */
  lemma ProcessAllSummary(msgs: seq<RawMessage>, channelId: string, channelName: string,
                          parse: TimestampParser, d: MessageData)
    ensures var r := ProcessAll(msgs, channelId, channelName, parse, d);
      && (r.Success? ==> AllStored(msgs, channelId, parse, r.value))
      && (r.Success? ==> forall k :: k in r.value.entries ==> k in d.entries || KeyFrom(k, channelId, msgs, parse))
      && (r.Success? ==> forall k :: k in r.value.entries ==>
            k in d.entries || StoredFrom(k, r.value.entries[k], channelId, channelName, msgs, parse))
      && (r.Failure? ==> exists x :: x in msgs && Normalize(x, channelId, channelName, parse).Failure?)
      && (r.Success? <==> forall x :: x in msgs ==> Normalize(x, channelId, channelName, parse).Success?)
  {
    var r := ProcessAll(msgs, channelId, channelName, parse, d);
    if r.Success? {
      ProcessAllNormalizesEach(msgs, channelId, channelName, parse, d);
      ProcessAllStoresEach(msgs, channelId, channelName, parse, d);
      ProcessAllAddsOnly(msgs, channelId, channelName, parse, d);
      ProcessAllFirstWins(msgs, channelId, channelName, parse, d);
      forall k | k in r.value.entries && k !in d.entries
        ensures StoredFrom(k, r.value.entries[k], channelId, channelName, msgs, parse)
      {
        var i :| 0 <= i < |msgs| && parse(TsText(msgs[i])) == Some(k.ts)
          && Normalize(msgs[i], channelId, channelName, parse) == Success(r.value.entries[k]);
        assert msgs[i] in msgs;
      }
      forall x | x in msgs
        ensures parse(TsText(x)).Some? && MessageKey(channelId, parse(TsText(x)).value) in r.value.entries
      {
        var i :| 0 <= i < |msgs| && msgs[i] == x;
      }
      forall k | k in r.value.entries && k !in d.entries ensures KeyFrom(k, channelId, msgs, parse) {
        var i :| 0 <= i < |msgs| && parse(TsText(msgs[i])) == Some(k.ts);
        assert msgs[i] in msgs;
      }
    } else {
      ProcessAllFailsOnBadRecord(msgs, channelId, channelName, parse, d);
      var i :| 0 <= i < |msgs| && Normalize(msgs[i], channelId, channelName, parse).Failure?;
      assert msgs[i] in msgs;
    }
  }

  /** The replies processed for a thread: all but those whose raw `ts` text equals the root's `thread_ts` text. */
  function KeptReplies(replies: seq<RawMessage>, threadTs: string): seq<RawMessage>
    decreases |replies|
  {
    if |replies| == 0 then []
    else if replies[0].ts == Some(threadTs) then KeptReplies(replies[1..], threadTs)
    else [replies[0]] + KeptReplies(replies[1..], threadTs)
  }

  lemma {:induction false} KeptRepliesMembers(replies: seq<RawMessage>, threadTs: string, x: RawMessage)
    ensures x in KeptReplies(replies, threadTs) <==> x in replies && x.ts != Some(threadTs)
    decreases |replies|
  {
    if |replies| > 0 {
      KeptRepliesMembers(replies[1..], threadTs, x);
      assert x in replies <==> x == replies[0] || x in replies[1..] by {
        assert replies == [replies[0]] + replies[1..];
      }
    }
  }

  /** The reply loop of `process_channel`: a reply whose raw `ts` text equals
      `thread_ts` is skipped; every other reply goes through `process_message`. */
  function ProcessReplies(replies: seq<RawMessage>, threadTs: string, channelId: string, channelName: string,
                          parse: TimestampParser, d: MessageData): Result<MessageData, Fault>
    decreases |replies|
  {
    if |replies| == 0 then Success(d)
    else if replies[0].ts == Some(threadTs) then ProcessReplies(replies[1..], threadTs, channelId, channelName, parse, d)
    else match ProcessMessage(d, replies[0], channelId, channelName, parse)
      case Failure(f) => Failure(f)
      case Success(d1) => ProcessReplies(replies[1..], threadTs, channelId, channelName, parse, d1)
  }

  /** The reply loop processes exactly the replies that are not the thread root
      (by raw `ts` text), in order: a skipped root contributes nothing. */
  lemma {:induction false} ProcessRepliesSkipsRoot(replies: seq<RawMessage>, threadTs: string, channelId: string,
                                                   channelName: string, parse: TimestampParser, d: MessageData)
    ensures ProcessReplies(replies, threadTs, channelId, channelName, parse, d)
         == ProcessAll(KeptReplies(replies, threadTs), channelId, channelName, parse, d)
    decreases |replies|
  {
    if |replies| > 0 {
      var kept := KeptReplies(replies, threadTs);
      if replies[0].ts == Some(threadTs) {
        ProcessRepliesSkipsRoot(replies[1..], threadTs, channelId, channelName, parse, d);
      } else {
        assert kept[0] == replies[0] && kept[1..] == KeptReplies(replies[1..], threadTs);
        match ProcessMessage(d, replies[0], channelId, channelName, parse)
        case Failure(_) =>
        case Success(d1) =>
          ProcessRepliesSkipsRoot(replies[1..], threadTs, channelId, channelName, parse, d1);
      }
    }
  }

  // ---------------------------------------------------------------------------
  // process_channel

  /** The number of messages carrying a `thread_ts` key, each of which causes one replies call. */
  function ThreadedCount(msgs: seq<RawMessage>): nat
    decreases |msgs|
  {
    if |msgs| == 0 then 0 else (if msgs[0].threadTs.Some? then 1 else 0) + ThreadedCount(msgs[1..])
  }

  /** The message loop of `process_channel`. Every message is processed; one
      carrying a `thread_ts` key (even an empty one) also has its replies
      fetched, and a failed replies call only skips that thread. */
  function ProcessHistory(msgs: seq<RawMessage>, replies: seq<ApiResult<seq<RawMessage>>>, channelId: string,
                          channelName: string, parse: TimestampParser, d: MessageData): (r: Run<MessageData>)
    ensures r.Done? ==> forall k :: k in d.entries ==> k in r.value.entries && r.value.entries[k] == d.entries[k]
    ensures r.Done? ==> forall i :: 0 <= i < |msgs| ==>
      parse(TsText(msgs[i])).Some? && MessageKey(channelId, parse(TsText(msgs[i])).value) in r.value.entries
    ensures r.Done? ==> ThreadedCount(msgs) <= |replies|
    ensures r.Exhausted? ==> ThreadedCount(msgs) > |replies|
    decreases |msgs|
  {
    if |msgs| == 0 then Done(d)
    else match ProcessMessage(d, msgs[0], channelId, channelName, parse)
      case Failure(f) => Crashed(f)
      case Success(d1) =>
        if msgs[0].threadTs.None? then
          var r := ProcessHistory(msgs[1..], replies, channelId, channelName, parse, d1);
          ProcessHistoryShift(msgs);
          r
        else if |replies| == 0 then Exhausted
        else match replies[0]
          case ApiError(_) =>
            var r := ProcessHistory(msgs[1..], replies[1..], channelId, channelName, parse, d1);
            ProcessHistoryShift(msgs);
            r
          case Ok(rs) =>
            ProcessRepliesSkipsRoot(rs, msgs[0].threadTs.value, channelId, channelName, parse, d1);
            match ProcessReplies(rs, msgs[0].threadTs.value, channelId, channelName, parse, d1)
            case Failure(f) => Crashed(f)
            case Success(d2) =>
              var r := ProcessHistory(msgs[1..], replies[1..], channelId, channelName, parse, d2);
              ProcessHistoryShift(msgs);
              r
  }

  /** Index bookkeeping for the loop: what holds of the tail holds at the shifted index. */
  lemma ProcessHistoryShift(msgs: seq<RawMessage>)
    requires |msgs| > 0
    ensures ThreadedCount(msgs) == (if msgs[0].threadTs.Some? then 1 else 0) + ThreadedCount(msgs[1..])
    ensures forall i :: 1 <= i < |msgs| ==> msgs[i] == msgs[1..][i - 1]
  {
  }

  /** The records the message loop of `process_channel` processes, in order:
      each history message, followed, when it carries `thread_ts` and its
      replies call succeeds, by the replies that are not the thread root. The
      records stop at the message whose replies call has no answer left. */
  function HistoryRecords(msgs: seq<RawMessage>, replies: seq<ApiResult<seq<RawMessage>>>): seq<RawMessage>
    decreases |msgs|
  {
    if |msgs| == 0 then []
    else if msgs[0].threadTs.None? then [msgs[0]] + HistoryRecords(msgs[1..], replies)
    else if |replies| == 0 then [msgs[0]]
    else match replies[0]
      case ApiError(_) => [msgs[0]] + HistoryRecords(msgs[1..], replies[1..])
      case Ok(rs) => [msgs[0]] + KeptReplies(rs, msgs[0].threadTs.value) + HistoryRecords(msgs[1..], replies[1..])
  }

  /** The run outcome of processing records in turn, given whether the API had
      an answer for every call. */
  function ToRun(res: Result<MessageData, Fault>, answered: bool): Run<MessageData> {
    match res
    case Failure(f) => Crashed(f)
    case Success(v) => if answered then Done(v) else Exhausted
  }

  /** The message loop is `process_message` over exactly `HistoryRecords`, in
      order: it crashes with the first failure, completes when every message
      carrying `thread_ts` found a replies answer, and runs out otherwise. */
  lemma {:induction false} ProcessHistoryIsProcessAll(msgs: seq<RawMessage>, replies: seq<ApiResult<seq<RawMessage>>>,
                                                      channelId: string, channelName: string,
                                                      parse: TimestampParser, d: MessageData)
    ensures ProcessHistory(msgs, replies, channelId, channelName, parse, d) ==
      ToRun(ProcessAll(HistoryRecords(msgs, replies), channelId, channelName, parse, d),
            ThreadedCount(msgs) <= |replies|)
    decreases |msgs|
  {
    if |msgs| > 0 {
      var records := HistoryRecords(msgs, replies);
      assert records[0] == msgs[0];
      match ProcessMessage(d, msgs[0], channelId, channelName, parse)
      case Failure(_) =>
      case Success(d1) =>
        if msgs[0].threadTs.None? {
          assert records[1..] == HistoryRecords(msgs[1..], replies);
          ProcessHistoryIsProcessAll(msgs[1..], replies, channelId, channelName, parse, d1);
        } else if |replies| == 0 {
          assert records[1..] == [];
        } else {
          match replies[0]
          case ApiError(_) =>
            assert records[1..] == HistoryRecords(msgs[1..], replies[1..]);
            ProcessHistoryIsProcessAll(msgs[1..], replies[1..], channelId, channelName, parse, d1);
          case Ok(rs) =>
            var kept := KeptReplies(rs, msgs[0].threadTs.value);
            assert records[1..] == kept + HistoryRecords(msgs[1..], replies[1..]);
            ProcessRepliesSkipsRoot(rs, msgs[0].threadTs.value, channelId, channelName, parse, d1);
            ProcessAllAppend(kept, HistoryRecords(msgs[1..], replies[1..]), channelId, channelName, parse, d1);
            match ProcessAll(kept, channelId, channelName, parse, d1)
            case Failure(_) =>
            case Success(d2) =>
              ProcessHistoryIsProcessAll(msgs[1..], replies[1..], channelId, channelName, parse, d2);
        }
    }
  }

  /** The replies counted before message `i`: the index of its own replies answer. */
  lemma ThreadedCountPrefix(msgs: seq<RawMessage>, i: nat)
    requires 0 < i <= |msgs|
    ensures ThreadedCount(msgs[..i]) == (if msgs[0].threadTs.Some? then 1 else 0) + ThreadedCount(msgs[1..][..i - 1])
  {
    assert msgs[..i][1..] == msgs[1..][..i - 1];
  }

  /** Message `i` is among the processed records unless an earlier thread
      already ran out of replies answers. */
  lemma {:induction false} HistoryRecordsHasMessage(msgs: seq<RawMessage>, replies: seq<ApiResult<seq<RawMessage>>>,
                                                    i: nat)
    requires i < |msgs| && ThreadedCount(msgs[..i]) <= |replies|
    ensures msgs[i] in HistoryRecords(msgs, replies)
    decreases |msgs|
  {
    var records := HistoryRecords(msgs, replies);
    assert records[0] == msgs[0];
    if i > 0 {
      ThreadedCountPrefix(msgs, i);
      assert msgs[1..][i - 1] == msgs[i];
      if msgs[0].threadTs.None? {
        HistoryRecordsHasMessage(msgs[1..], replies, i - 1);
        assert records == [msgs[0]] + HistoryRecords(msgs[1..], replies);
      } else {
        HistoryRecordsHasMessage(msgs[1..], replies[1..], i - 1);
        match replies[0]
        case ApiError(_) =>
          assert records == [msgs[0]] + HistoryRecords(msgs[1..], replies[1..]);
        case Ok(rs) =>
          assert records == [msgs[0]] + KeptReplies(rs, msgs[0].threadTs.value) + HistoryRecords(msgs[1..], replies[1..]);
      }
    }
  }

  /** When message `i` carries `thread_ts` and its replies call (the one after
      those of the earlier threaded messages) succeeds, every reply that is not
      the thread root is among the processed records. */
  lemma {:induction false} HistoryRecordsHasReplies(msgs: seq<RawMessage>, replies: seq<ApiResult<seq<RawMessage>>>,
                                                    i: nat)
    requires i < |msgs| && msgs[i].threadTs.Some?
    requires ThreadedCount(msgs[..i]) < |replies| && replies[ThreadedCount(msgs[..i])].Ok?
    ensures forall x :: x in KeptReplies(replies[ThreadedCount(msgs[..i])].value, msgs[i].threadTs.value) ==>
      x in HistoryRecords(msgs, replies)
    decreases |msgs|
  {
    var records := HistoryRecords(msgs, replies);
    if i == 0 {
      assert msgs[..0] == [];
      var kept := KeptReplies(replies[0].value, msgs[0].threadTs.value);
      assert records == [msgs[0]] + kept + HistoryRecords(msgs[1..], replies[1..]);
    } else {
      ThreadedCountPrefix(msgs, i);
      assert msgs[1..][i - 1] == msgs[i];
      if msgs[0].threadTs.None? {
        HistoryRecordsHasReplies(msgs[1..], replies, i - 1);
        assert records == [msgs[0]] + HistoryRecords(msgs[1..], replies);
      } else {
        assert replies[1..][ThreadedCount(msgs[1..][..i - 1])] == replies[ThreadedCount(msgs[..i])];
        HistoryRecordsHasReplies(msgs[1..], replies[1..], i - 1);
        match replies[0]
        case ApiError(_) =>
          assert records == [msgs[0]] + HistoryRecords(msgs[1..], replies[1..]);
        case Ok(rs) =>
          assert records == [msgs[0]] + KeptReplies(rs, msgs[0].threadTs.value) + HistoryRecords(msgs[1..], replies[1..]);
      }
    }
  }

  /** What the message loop promises: when it completes, every history message
      and every non-root reply of every thread whose replies call succeeded is
      stored, and every new key holds the normalisation of one of those records
      with that key; it crashes exactly when some processed record does not normalise. */
  lemma ProcessHistorySummary(msgs: seq<RawMessage>, replies: seq<ApiResult<seq<RawMessage>>>, channelId: string,
                              channelName: string, parse: TimestampParser, d: MessageData)
    ensures var r := ProcessHistory(msgs, replies, channelId, channelName, parse, d);
      var records := HistoryRecords(msgs, replies);
      && (r.Done? ==> AllStored(records, channelId, parse, r.value))
      && (r.Done? ==> forall k :: k in r.value.entries ==> k in d.entries || KeyFrom(k, channelId, records, parse))
      && (r.Done? ==> forall k :: k in r.value.entries ==>
            k in d.entries || StoredFrom(k, r.value.entries[k], channelId, channelName, records, parse))
      && (r.Crashed? ==> exists x :: x in records && Normalize(x, channelId, channelName, parse).Failure?)
      && (r.Crashed? <==> exists x :: x in records && Normalize(x, channelId, channelName, parse).Failure?)
  {
    ProcessHistoryIsProcessAll(msgs, replies, channelId, channelName, parse, d);
    ProcessAllSummary(HistoryRecords(msgs, replies), channelId, channelName, parse, d);
  }

  /** A completed message loop stores the non-root replies of every message
      whose replies call succeeded; a failed replies call skips only its thread. */
  lemma ProcessHistoryStoresThreads(msgs: seq<RawMessage>, replies: seq<ApiResult<seq<RawMessage>>>, channelId: string,
                                    channelName: string, parse: TimestampParser, d: MessageData, i: nat)
    requires i < |msgs|
    ensures var r := ProcessHistory(msgs, replies, channelId, channelName, parse, d);
      r.Done? && msgs[i].threadTs.Some? ==>
        && ThreadedCount(msgs[..i]) < |replies|
        && (replies[ThreadedCount(msgs[..i])].Ok? ==>
              AllStored(KeptReplies(replies[ThreadedCount(msgs[..i])].value, msgs[i].threadTs.value),
                        channelId, parse, r.value))
  {
    var r := ProcessHistory(msgs, replies, channelId, channelName, parse, d);
    if r.Done? && msgs[i].threadTs.Some? {
      ThreadedCountSplit(msgs, i);
      ProcessHistorySummary(msgs, replies, channelId, channelName, parse, d);
      if replies[ThreadedCount(msgs[..i])].Ok? {
        HistoryRecordsHasReplies(msgs, replies, i);
      }
    }
  }

  /** The threaded messages before `i`, plus `i` itself when threaded, are at most all of them. */
  lemma {:induction false} ThreadedCountSplit(msgs: seq<RawMessage>, i: nat)
    requires i < |msgs|
    ensures ThreadedCount(msgs[..i]) + (if msgs[i].threadTs.Some? then 1 else 0) <= ThreadedCount(msgs)
    decreases |msgs|
  {
    if i > 0 {
      ThreadedCountPrefix(msgs, i);
      ThreadedCountSplit(msgs[1..], i - 1);
      assert msgs[1..][i - 1] == msgs[i];
    } else {
      assert msgs[..0] == [];
    }
  }

  /** The records `process_channel` processes for a channel given its answers. */
  function ChannelRecords(script: ChannelScript): seq<RawMessage> {
    HistoryRecords(GetChannelHistory(script.history).messages, script.replies)
  }

  /** `process_channel`: fetch the history, then process it. An API error other
      than `not_in_channel` only cuts the history short: the messages gathered
      before it are processed all the same. */
  function ProcessChannel(channel: RawChannel, script: ChannelScript, parse: TimestampParser, d: MessageData)
    : (r: Run<MessageData>)
    ensures var h := GetChannelHistory(script.history);
      && (h.stop.Raised? ==> r == Crashed(h.stop.fault))
      && (h.stop == ResponsesExhausted ==> r == Exhausted)
      && (h.stop.NoMore? || h.stop.Abandoned? ==>
            r == ProcessHistory(h.messages, script.replies, channel.id, channel.name, parse, d))
      && (r.Done? ==> forall i :: 0 <= i < |h.messages| ==>
            parse(TsText(h.messages[i])).Some? &&
            MessageKey(channel.id, parse(TsText(h.messages[i])).value) in r.value.entries)
    ensures r.Done? ==> forall k :: k in d.entries ==> k in r.value.entries && r.value.entries[k] == d.entries[k]
    // stored: every processed record (messages and non-root replies), and no other new key
    ensures r.Done? ==> AllStored(ChannelRecords(script), channel.id, parse, r.value)
    ensures r.Done? ==> forall k :: k in r.value.entries ==>
      k in d.entries || KeyFrom(k, channel.id, ChannelRecords(script), parse)
    ensures r.Done? ==> forall k :: k in r.value.entries ==>
      k in d.entries || StoredFrom(k, r.value.entries[k], channel.id, channel.name, ChannelRecords(script), parse)
    // a completed channel normalised every record it processed
    ensures r.Done? ==> forall x :: x in ChannelRecords(script) ==> Normalize(x, channel.id, channel.name, parse).Success?
    // a crash is the history loop's own, or a processed record that does not normalise
    ensures r.Crashed? ==>
      GetChannelHistory(script.history).stop.Raised? ||
      exists x :: x in ChannelRecords(script) && Normalize(x, channel.id, channel.name, parse).Failure?
  {
    var history := GetChannelHistory(script.history);
    ProcessHistorySummary(history.messages, script.replies, channel.id, channel.name, parse, d);
    match history.stop
    case Raised(f) => Crashed(f)
    case ResponsesExhausted => Exhausted
    case _ => ProcessHistory(history.messages, script.replies, channel.id, channel.name, parse, d)
  }

  /** The timestamp conversion used by the scenarios below. */
  function ScenarioParse(s: string): Option<Instant> {
    if s == "1.0" then Some(1) else if s == "2.0" then Some(2) else None
  }

  /** A thread root whose replies call returns the root again, then one reply:
      the root is stored once and the reply after it, in that order; the reply,
      which has no `reply_count`, records 0. */
  lemma ThreadRootStoredOnce()
    ensures
      var root := RawMessage(Some("1.0"), Some("U1"), Some("hi"), Some("1.0"), Some(1), None);
      var reply := RawMessage(Some("2.0"), Some("U2"), Some("re"), Some("1.0"), None, None);
      var r := ProcessHistory([root], [Ok([root, reply])], "C1", "general", ScenarioParse, Empty());
      && r.Done?
      && r.value.order == [MessageKey("C1", 1), MessageKey("C1", 2)]
      && r.value.entries[MessageKey("C1", 2)].threadTs == Some(1)
      && r.value.entries[MessageKey("C1", 2)].replyCount == 0
  {
    var root := RawMessage(Some("1.0"), Some("U1"), Some("hi"), Some("1.0"), Some(1), None);
    var reply := RawMessage(Some("2.0"), Some("U2"), Some("re"), Some("1.0"), None, None);
    var d1 := ProcessMessage(Empty(), root, "C1", "general", ScenarioParse).value;
    assert d1.order == [MessageKey("C1", 1)];
    var d2 := ProcessMessage(d1, reply, "C1", "general", ScenarioParse).value;
    assert ProcessReplies([reply], "1.0", "C1", "general", ScenarioParse, d1) == Success(d2) by {
      var none: seq<RawMessage> := [];
      assert [reply][1..] == none;
      assert ProcessReplies(none, "1.0", "C1", "general", ScenarioParse, d2) == Success(d2);
    }
    assert ProcessReplies([root, reply], "1.0", "C1", "general", ScenarioParse, d1) == Success(d2) by {
      assert [root, reply][1..] == [reply];
    }
    var msgs: seq<RawMessage> := [root];
    assert msgs[1..] == [];
  }

  /** A message with one reaction counted 2 by two listed users yields one
      message line and two reaction lines, each carrying the count 2. */
  lemma TwoUserReactionRows()
    ensures
      var raw := RawMessage(Some("1.0"), Some("U0"), Some("hi"), None, None,
                            Some([RawReaction("+1", 2, Some(["U1", "U2"]))]));
      var r := ProcessMessage(Empty(), raw, "C1", "general", ScenarioParse);
      && r.Success?
      && |CsvMessageLines(r.value)| == 2
      && CsvReactionLines(r.value) ==
           [Header(ReactionColumns),
            Line(CsvReactionRow("C1", "general", 1, "U0", "+1", 2, "U1")),
            Line(CsvReactionRow("C1", "general", 1, "U0", "+1", 2, "U2"))]
  {
    var raw := RawMessage(Some("1.0"), Some("U0"), Some("hi"), None, None,
                          Some([RawReaction("+1", 2, Some(["U1", "U2"]))]));
    var d := ProcessMessage(Empty(), raw, "C1", "general", ScenarioParse).value;
    var m := d.entries[MessageKey("C1", 1)];
    assert d.order == [MessageKey("C1", 1)];
    assert Entries(d) == [m];
    assert m.reactions == [Reaction("+1", 2, ["U1", "U2"])];
    var fs := [Flat(m, m.reactions[0], "U1"), Flat(m, m.reactions[0], "U2")];
    assert ReactionBlock(m, m.reactions[0]) == fs;
    assert AllFlats(Entries(d)) == fs by {
      assert m.reactions[1..] == [];
      assert Entries(d)[1..] == [];
    }
  }

  // ---------------------------------------------------------------------------
  // create_messages_and_reactions

  /** The non-archived channels of a listing, in listing order, as channel records. */
  function ActiveChannels(channels: seq<RawChannel>): seq<ChannelRecord>
    decreases |channels|
  {
    if |channels| == 0 then []
    else if channels[0].isArchived then ActiveChannels(channels[1..])
    else [ChannelRecord(channels[0].id, channels[0].name)] + ActiveChannels(channels[1..])
  }

  /** A record is active exactly when some non-archived channel of the listing has its id and name. */
  lemma {:induction false} ActiveChannelsMembers(channels: seq<RawChannel>, c: ChannelRecord)
    ensures c in ActiveChannels(channels) <==>
      exists ch :: ch in channels && !ch.isArchived && c == ChannelRecord(ch.id, ch.name)
    decreases |channels|
  {
    if |channels| > 0 {
      ActiveChannelsMembers(channels[1..], c);
      assert forall ch :: ch in channels <==> ch == channels[0] || ch in channels[1..] by {
        assert channels == [channels[0]] + channels[1..];
      }
    }
  }

  /** The result of the crawl: the run-wide message store and the channel list. */
  datatype Harvest = Harvest(messageData: MessageData, channelList: seq<ChannelRecord>)

  /** The channel loop: archived channels are skipped; every other channel is
      processed with the next script and then appended to the channel list. */
  function CrawlChannels(channels: seq<RawChannel>, scripts: seq<ChannelScript>, parse: TimestampParser,
                         d: MessageData): (r: Run<Harvest>)
    ensures r.Done? ==> r.value.channelList == ActiveChannels(channels)
    ensures r.Done? ==> |ActiveChannels(channels)| <= |scripts|
    ensures r.Done? ==> forall k :: k in d.entries ==>
      k in r.value.messageData.entries && r.value.messageData.entries[k] == d.entries[k]
    decreases |channels|
  {
    if |channels| == 0 then Done(Harvest(d, []))
    else if channels[0].isArchived then CrawlChannels(channels[1..], scripts, parse, d)
    else if |scripts| == 0 then Exhausted
    else match ProcessChannel(channels[0], scripts[0], parse, d)
      case Crashed(f) => Crashed(f)
      case Exhausted => Exhausted
      case Done(d1) =>
        match CrawlChannels(channels[1..], scripts[1..], parse, d1)
        case Crashed(f) => Crashed(f)
        case Exhausted => Exhausted
        case Done(h) => Done(Harvest(h.messageData, [ChannelRecord(channels[0].id, channels[0].name)] + h.channelList))
  }

  /** A non-archived channel paired with the answers it is crawled with. */
  datatype Assignment = Assignment(channel: RawChannel, script: ChannelScript)

  /** The channel loop's pairing: the i-th non-archived channel takes the i-th
      channel's answers; archived channels take none. */
  function Assign(channels: seq<RawChannel>, scripts: seq<ChannelScript>): seq<Assignment>
    decreases |channels|
  {
    if |channels| == 0 then []
    else if channels[0].isArchived then Assign(channels[1..], scripts)
    else if |scripts| == 0 then []
    else [Assignment(channels[0], scripts[0])] + Assign(channels[1..], scripts[1..])
  }

  /** With enough answers, the pairing lines the active channels up with the answers, in order. */
  lemma {:induction false} AssignPairs(channels: seq<RawChannel>, scripts: seq<ChannelScript>)
    requires |ActiveChannels(channels)| <= |scripts|
    ensures var a := Assign(channels, scripts);
      && |a| == |ActiveChannels(channels)|
      && forall i :: 0 <= i < |a| ==>
           && !a[i].channel.isArchived
           && a[i].script == scripts[i]
           && ChannelRecord(a[i].channel.id, a[i].channel.name) == ActiveChannels(channels)[i]
    decreases |channels|
  {
    if |channels| > 0 {
      if channels[0].isArchived {
        AssignPairs(channels[1..], scripts);
      } else {
        AssignPairs(channels[1..], scripts[1..]);
      }
    }
  }

  /** What a completed crawl stores: every record processed for every crawled
      channel, nothing already stored is replaced, and every new key is the key
      of a record processed for one of the crawled channels. */
  lemma {:induction false} CrawlChannelsStores(channels: seq<RawChannel>, scripts: seq<ChannelScript>,
                                               parse: TimestampParser, d: MessageData)
    ensures var r := CrawlChannels(channels, scripts, parse, d);
      && (r.Done? ==> forall a :: a in Assign(channels, scripts) ==>
            AllStored(ChannelRecords(a.script), a.channel.id, parse, r.value.messageData))
      && (r.Done? ==> forall k :: k in r.value.messageData.entries ==>
            k in d.entries ||
            exists a :: a in Assign(channels, scripts) && KeyFrom(k, a.channel.id, ChannelRecords(a.script), parse))
    decreases |channels|
  {
    var r := CrawlChannels(channels, scripts, parse, d);
    if r.Done? && |channels| > 0 {
      if channels[0].isArchived {
        CrawlChannelsStores(channels[1..], scripts, parse, d);
      } else {
        var head := Assignment(channels[0], scripts[0]);
        var d1 := ProcessChannel(channels[0], scripts[0], parse, d).value;
        var tail := Assign(channels[1..], scripts[1..]);
        assert Assign(channels, scripts) == [head] + tail;
        CrawlChannelsStores(channels[1..], scripts[1..], parse, d1);
        var h := r.value.messageData;
        assert h == CrawlChannels(channels[1..], scripts[1..], parse, d1).value.messageData;
        assert AllStored(ChannelRecords(head.script), head.channel.id, parse, h);
        forall k | k in h.entries
          ensures k in d.entries || exists a :: a in Assign(channels, scripts) && KeyFrom(k, a.channel.id, ChannelRecords(a.script), parse)
        {
          if k in d1.entries && k !in d.entries {
            assert KeyFrom(k, head.channel.id, ChannelRecords(head.script), parse);
            assert head in Assign(channels, scripts);
          } else if k !in d1.entries {
            var a :| a in tail && KeyFrom(k, a.channel.id, ChannelRecords(a.script), parse);
            assert a in Assign(channels, scripts);
          }
        }
      }
    }
  }

  /** What a completed crawl stores under each new key: the normalisation, with
      its channel's id and name, of a record processed for a crawled channel. */
  lemma {:induction false} CrawlChannelsContents(channels: seq<RawChannel>, scripts: seq<ChannelScript>,
                                                 parse: TimestampParser, d: MessageData)
    ensures var r := CrawlChannels(channels, scripts, parse, d);
      r.Done? ==> var h := r.value.messageData;
        forall k :: k in h.entries ==>
          k in d.entries ||
          exists a :: a in Assign(channels, scripts) &&
            StoredFrom(k, h.entries[k], a.channel.id, a.channel.name, ChannelRecords(a.script), parse)
    decreases |channels|
  {
    var r := CrawlChannels(channels, scripts, parse, d);
    if r.Done? && |channels| > 0 {
      if channels[0].isArchived {
        CrawlChannelsContents(channels[1..], scripts, parse, d);
      } else {
        var head := Assignment(channels[0], scripts[0]);
        var d1 := ProcessChannel(channels[0], scripts[0], parse, d).value;
        var tail := Assign(channels[1..], scripts[1..]);
        assert Assign(channels, scripts) == [head] + tail;
        CrawlChannelsContents(channels[1..], scripts[1..], parse, d1);
        var h := r.value.messageData;
        assert h == CrawlChannels(channels[1..], scripts[1..], parse, d1).value.messageData;
        forall k | k in h.entries && k !in d.entries
          ensures exists a :: a in Assign(channels, scripts) &&
                    StoredFrom(k, h.entries[k], a.channel.id, a.channel.name, ChannelRecords(a.script), parse)
        {
          if k in d1.entries {
            assert h.entries[k] == d1.entries[k];
            assert StoredFrom(k, h.entries[k], head.channel.id, head.channel.name, ChannelRecords(head.script), parse);
            assert head in Assign(channels, scripts);
          } else {
            var a :| a in tail &&
              StoredFrom(k, h.entries[k], a.channel.id, a.channel.name, ChannelRecords(a.script), parse);
            assert a in Assign(channels, scripts);
          }
        }
      }
    }
  }

  /** A channel's given answers run out: its history loop needs another
      answer, or its message loop needs more replies answers than given. */
  predicate RunsOut(script: ChannelScript) {
    var h := GetChannelHistory(script.history);
    || h.stop == ResponsesExhausted
    || ((h.stop.NoMore? || h.stop.Abandoned?) && ThreadedCount(h.messages) > |script.replies|)
  }

  /** A crawl runs out only when there are fewer channel answers than active
      channels, or a crawled channel's own answers run out. So with answers for
      every active channel, none of which runs out, the crawl completes or crashes. */
  lemma {:induction false} CrawlChannelsRunsOut(channels: seq<RawChannel>, scripts: seq<ChannelScript>,
                                                parse: TimestampParser, d: MessageData)
    ensures CrawlChannels(channels, scripts, parse, d).Exhausted? ==>
      || |ActiveChannels(channels)| > |scripts|
      || exists a :: a in Assign(channels, scripts) && RunsOut(a.script)
    decreases |channels|
  {
    var r := CrawlChannels(channels, scripts, parse, d);
    if r.Exhausted? {
      if channels[0].isArchived {
        CrawlChannelsRunsOut(channels[1..], scripts, parse, d);
      } else if |scripts| > 0 {
        var head := Assignment(channels[0], scripts[0]);
        assert Assign(channels, scripts) == [head] + Assign(channels[1..], scripts[1..]);
        match ProcessChannel(channels[0], scripts[0], parse, d)
        case Exhausted =>
          assert RunsOut(scripts[0]);
          assert head in Assign(channels, scripts);
        case Done(d1) =>
          CrawlChannelsRunsOut(channels[1..], scripts[1..], parse, d1);
          if |ActiveChannels(channels[1..])| <= |scripts[1..]| {
            var a :| a in Assign(channels[1..], scripts[1..]) && RunsOut(a.script);
            assert a in Assign(channels, scripts);
          }
      }
    }
  }

  /** A crawl crashes only on a crawled channel whose history loop raised or one
      of whose processed records does not normalise. */
  lemma {:induction false} CrawlChannelsCrashCause(channels: seq<RawChannel>, scripts: seq<ChannelScript>,
                                                   parse: TimestampParser, d: MessageData)
    ensures CrawlChannels(channels, scripts, parse, d).Crashed? ==>
      exists a :: a in Assign(channels, scripts) &&
        (GetChannelHistory(a.script.history).stop.Raised? ||
         exists x :: x in ChannelRecords(a.script) && Normalize(x, a.channel.id, a.channel.name, parse).Failure?)
    decreases |channels|
  {
    var r := CrawlChannels(channels, scripts, parse, d);
    if r.Crashed? {
      if channels[0].isArchived {
        CrawlChannelsCrashCause(channels[1..], scripts, parse, d);
      } else {
        var head := Assignment(channels[0], scripts[0]);
        assert Assign(channels, scripts) == [head] + Assign(channels[1..], scripts[1..]);
        match ProcessChannel(channels[0], scripts[0], parse, d)
        case Crashed(_) =>
          assert head in Assign(channels, scripts);
        case Done(d1) =>
          CrawlChannelsCrashCause(channels[1..], scripts[1..], parse, d1);
          var a :| a in Assign(channels[1..], scripts[1..]) &&
            (GetChannelHistory(a.script.history).stop.Raised? ||
             exists x :: x in ChannelRecords(a.script) && Normalize(x, a.channel.id, a.channel.name, parse).Failure?);
          assert a in Assign(channels, scripts);
      }
    }
  }

  /** `create_messages_and_reactions`: list the channels, then crawl them
      from an empty store. The channel list holds exactly the non-archived
      channels of the pages the listing received, in API order. */
  function CreateMessagesAndReactions(listResponses: seq<ApiResult<ChannelsPage>>, scripts: seq<ChannelScript>,
                                      parse: TimestampParser): (r: Run<Harvest>)
    ensures var listing := GetChannels(listResponses);
      && (!listing.finished ==> r == Exhausted)
      && (r.Done? ==>
            r.value.channelList == ActiveChannels(ConcatChannels(listResponses[..|listing.cursors|])))
    // the store holds exactly the keys of the records processed for the crawled channels
    ensures var crawled := Assign(GetChannels(listResponses).channels, scripts);
      && (r.Done? ==> forall a :: a in crawled ==>
            AllStored(ChannelRecords(a.script), a.channel.id, parse, r.value.messageData))
      && (r.Done? ==> forall k :: k in r.value.messageData.entries ==>
            exists a :: a in crawled && KeyFrom(k, a.channel.id, ChannelRecords(a.script), parse))
      && (r.Crashed? ==>
            exists a :: a in crawled &&
              (GetChannelHistory(a.script.history).stop.Raised? ||
               exists x :: x in ChannelRecords(a.script) && Normalize(x, a.channel.id, a.channel.name, parse).Failure?))
    // the run runs out only when the listing, or some channel's answers, do
    ensures var listing := GetChannels(listResponses);
      r.Exhausted? ==>
        || !listing.finished
        || |ActiveChannels(listing.channels)| > |scripts|
        || exists a :: a in Assign(listing.channels, scripts) && RunsOut(a.script)
    // and each key holds the normalisation of a crawled record with that key
    ensures var crawled := Assign(GetChannels(listResponses).channels, scripts);
      r.Done? ==> forall k :: k in r.value.messageData.entries ==>
        (exists a :: a in crawled &&
           StoredFrom(k, r.value.messageData.entries[k], a.channel.id, a.channel.name, ChannelRecords(a.script), parse))
  {
    var listing := GetChannels(listResponses);
    ListFromPages(listResponses, None);
    CrawlChannelsStores(listing.channels, scripts, parse, Empty());
    CrawlChannelsCrashCause(listing.channels, scripts, parse, Empty());
    CrawlChannelsContents(listing.channels, scripts, parse, Empty());
    CrawlChannelsRunsOut(listing.channels, scripts, parse, Empty());
    if !listing.finished then Exhausted
    else CrawlChannels(listing.channels, scripts, parse, Empty())
  }

  // ---------------------------------------------------------------------------
  // exports

  datatype CsvFiles = CsvFiles(messageLines: seq<CsvLine<CsvMessageRow>>, reactionLines: seq<CsvLine<CsvReactionRow>>)

  /** `export_data_to_csv`: crawl, then write both files; a crawl that raises writes nothing.
      The messages file has a header and one line per stored message; the
      reactions file a header and one line per listed reacting user. */
  function ExportDataToCsv(listResponses: seq<ApiResult<ChannelsPage>>, scripts: seq<ChannelScript>,
                           parse: TimestampParser): (r: Run<CsvFiles>)
    ensures var h := CreateMessagesAndReactions(listResponses, scripts, parse);
      && (r.Done? <==> h.Done?)
      && (r.Done? ==>
            && |r.value.messageLines| == |h.value.messageData.entries| + 1
            && r.value.messageLines[0] == Header(MessageColumns)
            && |r.value.reactionLines| == ReactionUsersTotal(Entries(h.value.messageData)) + 1
            && r.value.reactionLines[0] == Header(ReactionColumns))
    // the files are the two row builders applied to the crawled store
    ensures var h := CreateMessagesAndReactions(listResponses, scripts, parse);
      r.Done? ==> r.value == CsvFiles(CsvMessageLines(h.value.messageData), CsvReactionLines(h.value.messageData))
    // so every stored message has its line, and every listed reacting user of it has one
    ensures var h := CreateMessagesAndReactions(listResponses, scripts, parse);
      r.Done? ==> var d := h.value.messageData;
        && (forall k :: k in d.entries ==> Line(CsvMessageRowOf(d.entries[k])) in r.value.messageLines)
        && (forall m, x, u :: m in d.entries.Values && x in m.reactions && u in x.users ==>
              Line(CsvReactionRow(m.channelId, m.channelName, m.ts, m.user, x.name, x.count, u)) in r.value.reactionLines)
  {
    match CreateMessagesAndReactions(listResponses, scripts, parse)
    case Crashed(f) => Crashed(f)
    case Exhausted => Exhausted
    case Done(h) => Done(CsvFiles(CsvMessageLines(h.messageData), CsvReactionLines(h.messageData)))
  }

  /** `export_data_to_database`: crawl, then flush to the tables; a crawl that
      raises writes nothing. When the flush does not fail, every message of the
      run is stored with its own columns and every active channel id is in the
      channel table. */
  function ExportDataToDatabase(db: Tables, listResponses: seq<ApiResult<ChannelsPage>>,
                                scripts: seq<ChannelScript>, parse: TimestampParser, faults: SinkFaults)
    : (r: Run<Flushed>)
    ensures var h := CreateMessagesAndReactions(listResponses, scripts, parse);
      && (r.Done? <==> h.Done?)
      && (r.Done? && r.value.error.None? ==>
            && (forall k :: k in h.value.messageData.entries ==>
                  k in r.value.tables.messages &&
                  r.value.tables.messages[k] == MessageFieldsOf(h.value.messageData.entries[k]))
            && (forall c :: c in h.value.channelList ==> c.channelId in r.value.tables.channels))
    // the flush is of exactly the crawled store and channel list, under the given store faults
    ensures var h := CreateMessagesAndReactions(listResponses, scripts, parse);
      r.Done? ==> r.value == WriteChannelDataForDatabase(db, h.value.messageData, h.value.channelList, faults)
    // so it fails exactly when a non-empty batch does
    ensures var h := CreateMessagesAndReactions(listResponses, scripts, parse);
      r.Done? ==>
        (r.value.error.None? <==>
           && (|h.value.channelList| == 0 || faults.channels.None?)
           && (|h.value.messageData.entries| == 0 || faults.messages.None?)
           && (ReactionUsersTotal(Entries(h.value.messageData)) == 0 || faults.reactions.None?))
  {
    match CreateMessagesAndReactions(listResponses, scripts, parse)
    case Crashed(f) => Crashed(f)
    case Exhausted => Exhausted
    case Done(h) => Done(WriteChannelDataForDatabase(db, h.messageData, h.channelList, faults))
  }
}

=== FILE: database.dfy ===
/**
  The relational sink of main.py: the `slack_channels`, `slack_messages` and
  `slack_reactions` tables as maps from primary key to non-key columns, the
  three `Db.insert_*` upserts, and `write_channel_data_for_database`, which
  flushes the channel list, then the messages, then the reactions of a run.
 */
module Database {
  import opened Basics
  import opened Records
  import opened RunStore
  import opened Rows
  import opened Upsert

  /** The non-key columns of `slack_messages`. */
  datatype MessageFields = MessageFields(userId: string, text: string, threadTs: Option<Instant>, replyCount: int)

  /** The primary key of `slack_reactions`. */
  datatype ReactionKey = ReactionKey(channelId: string, ts: Instant, reactionName: string, reactionUserId: string)

  /** The non-key columns of `slack_reactions`. */
  datatype ReactionFields = ReactionFields(messageUserId: string, reactionCount: int)

  type MessageTable = map<MessageKey, MessageFields>
  type ReactionTable = map<ReactionKey, ReactionFields>
  /** `slack_channels`: channel id to channel name. */
  type ChannelTable = map<string, string>

  function MessageKeyOfRow(row: DbMessageRow): MessageKey {
    MessageKey(row.channelId, row.ts)
  }

  function MessageFieldsOfRow(row: DbMessageRow): MessageFields {
    MessageFields(row.userId, row.text, row.threadTs, row.replyCount)
  }

  function ReactionKeyOfRow(row: DbReactionRow): ReactionKey {
    ReactionKey(row.channelId, row.ts, row.reactionName, row.reactionUserId)
  }

  /** An update of `slack_messages` overwrites all four non-key columns. */
  function OverwriteMessage(stored: MessageFields, incoming: MessageFields): MessageFields {
    incoming
  }

  /** An update of `slack_reactions` overwrites `reaction_count` only. */
  function OverwriteReactionCount(stored: ReactionFields, incoming: ReactionFields): ReactionFields {
    stored.(reactionCount := incoming.reactionCount)
  }

  /** An update of `slack_channels` overwrites `channel_name`. */
  function OverwriteChannelName(stored: string, incoming: string): string {
    incoming
  }

  lemma OverwritesObeyLaws()
    ensures OverwriteLaws(OverwriteMessage)
    ensures OverwriteLaws(OverwriteReactionCount)
    ensures OverwriteLaws(OverwriteChannelName)
  {
  }

  function MessageBatch(rows: seq<DbMessageRow>): (b: seq<Row<MessageKey, MessageFields>>)
    ensures |b| == |rows|
    ensures forall i :: 0 <= i < |rows| ==> b[i] == Row(MessageKeyOfRow(rows[i]), MessageFieldsOfRow(rows[i]))
  {
    seq(|rows|, i requires 0 <= i < |rows| => Row(MessageKeyOfRow(rows[i]), MessageFieldsOfRow(rows[i])))
  }

  function ReactionBatch(rows: seq<DbReactionRow>): (b: seq<Row<ReactionKey, ReactionFields>>)
    ensures |b| == |rows|
    ensures forall i :: 0 <= i < |rows| ==>
      b[i] == Row(ReactionKeyOfRow(rows[i]), ReactionFields(rows[i].messageUserId, rows[i].reactionCount))
  {
    seq(|rows|, i requires 0 <= i < |rows| =>
      Row(ReactionKeyOfRow(rows[i]), ReactionFields(rows[i].messageUserId, rows[i].reactionCount)))
  }

  function ChannelBatch(channels: seq<ChannelRecord>): (b: seq<Row<string, string>>)
    ensures |b| == |channels|
    ensures forall i :: 0 <= i < |channels| ==> b[i] == Row(channels[i].channelId, channels[i].channelName)
  {
    seq(|channels|, i requires 0 <= i < |channels| => Row(channels[i].channelId, channels[i].channelName))
  }

  /** No later row of the batch has the key of row `i`. */
  ghost predicate LastWithKey<K, V>(b: seq<Row<K, V>>, i: int)
    requires 0 <= i < |b|
  {
    forall j :: i < j < |b| ==> b[j].key != b[i].key
  }

  /** No earlier row of the batch has the key of row `i`. */
  ghost predicate FirstWithKey<K, V>(b: seq<Row<K, V>>, i: int)
    requires 0 <= i < |b|
  {
    forall j :: 0 <= j < i ==> b[j].key != b[i].key
  }

  /** The keys a message batch mentions are those of its rows. */
  lemma MessageBatchKeys(rows: seq<DbMessageRow>)
    ensures forall k :: k in KeysOf(MessageBatch(rows)) <==>
      exists i :: 0 <= i < |rows| && MessageKeyOfRow(rows[i]) == k
  {
    var b := MessageBatch(rows);
    forall k ensures k in KeysOf(b) <==> exists i :: 0 <= i < |rows| && MessageKeyOfRow(rows[i]) == k {
      KeysOfMembers(b, k);
      if exists i :: 0 <= i < |rows| && MessageKeyOfRow(rows[i]) == k {
        var i :| 0 <= i < |rows| && MessageKeyOfRow(rows[i]) == k;
        assert b[i].key == k;
      }
    }
  }

  /** After the loop, the last row with a key decides all of its columns. */
  lemma MessageBatchValues(t: MessageTable, rows: seq<DbMessageRow>)
    ensures var t' := ApplyRows(t, MessageBatch(rows), OverwriteMessage);
      forall i :: 0 <= i < |rows| && LastWithKey(MessageBatch(rows), i) ==>
        MessageKeyOfRow(rows[i]) in t' && t'[MessageKeyOfRow(rows[i])] == MessageFieldsOfRow(rows[i])
  {
    var b := MessageBatch(rows);
    OverwritesObeyLaws();
    forall i | 0 <= i < |rows| && LastWithKey(b, i)
      ensures b[i].key in ApplyRows(t, b, OverwriteMessage)
      ensures ApplyRows(t, b, OverwriteMessage)[b[i].key] == b[i].fields
    {
      LastFieldsAt(b, i);
      ApplyRowsValue(t, b, OverwriteMessage, b[i].key);
    }
  }

  /** `Db.insert_message_data`. After a committed batch every key of the batch
      holds the non-key columns of its last row in the batch (of its only row,
      when the keys are distinct), and every other key is as it was; an empty
      batch, or one that fails and is rolled back, leaves the table unchanged. */
  function InsertMessageData(t: MessageTable, rows: seq<DbMessageRow>, fault: Option<string>)
    : (w: Written<MessageKey, MessageFields>)
    ensures |rows| == 0 ==> w == Written(t, Skipped)
    ensures |rows| > 0 && fault.Some? ==> w == Written(t, RolledBack(fault.value))
    ensures |rows| > 0 && fault.None? ==>
      && w.outcome == Committed
      && (forall k :: k in w.table <==> k in t || exists i :: 0 <= i < |rows| && MessageKeyOfRow(rows[i]) == k)
      && (forall k :: k in t && (forall i :: 0 <= i < |rows| ==> MessageKeyOfRow(rows[i]) != k) ==>
            w.table[k] == t[k])
      && (forall i :: 0 <= i < |rows| && LastWithKey(MessageBatch(rows), i) ==>
            MessageKeyOfRow(rows[i]) in w.table &&
            w.table[MessageKeyOfRow(rows[i])] == MessageFieldsOfRow(rows[i]))
  {
    MessageBatchKeys(rows);
    MessageBatchValues(t, rows);
    InsertBatch(t, MessageBatch(rows), OverwriteMessage, fault)
  }

  /** The keys a reaction batch mentions are those of its rows. */
  lemma ReactionBatchKeys(rows: seq<DbReactionRow>)
    ensures forall k :: k in KeysOf(ReactionBatch(rows)) <==>
      exists i :: 0 <= i < |rows| && ReactionKeyOfRow(rows[i]) == k
  {
    var b := ReactionBatch(rows);
    forall k ensures k in KeysOf(b) <==> exists i :: 0 <= i < |rows| && ReactionKeyOfRow(rows[i]) == k {
      KeysOfMembers(b, k);
      if exists i :: 0 <= i < |rows| && ReactionKeyOfRow(rows[i]) == k {
        var i :| 0 <= i < |rows| && ReactionKeyOfRow(rows[i]) == k;
        assert b[i].key == k;
      }
    }
  }

  /** After the loop, the last row with a key decides its `reaction_count`. */
  lemma ReactionBatchCounts(t: ReactionTable, rows: seq<DbReactionRow>)
    ensures var t' := ApplyRows(t, ReactionBatch(rows), OverwriteReactionCount);
      forall i :: 0 <= i < |rows| && LastWithKey(ReactionBatch(rows), i) ==>
        ReactionKeyOfRow(rows[i]) in t' && t'[ReactionKeyOfRow(rows[i])].reactionCount == rows[i].reactionCount
  {
    var b := ReactionBatch(rows);
    OverwritesObeyLaws();
    forall i | 0 <= i < |rows| && LastWithKey(b, i)
      ensures b[i].key in ApplyRows(t, b, OverwriteReactionCount)
      ensures ApplyRows(t, b, OverwriteReactionCount)[b[i].key].reactionCount == b[i].fields.reactionCount
    {
      LastFieldsAt(b, i);
      ApplyRowsValue(t, b, OverwriteReactionCount, b[i].key);
    }
  }

  /** After the loop, `message_user_id` is the stored one for an existing key,
      and that of the first row with the key for a new one. */
  lemma ReactionBatchMessageUsers(t: ReactionTable, rows: seq<DbReactionRow>)
    ensures var t' := ApplyRows(t, ReactionBatch(rows), OverwriteReactionCount);
      && (forall k :: k in t ==> k in t' && t'[k].messageUserId == t[k].messageUserId)
      && (forall i :: 0 <= i < |rows| && FirstWithKey(ReactionBatch(rows), i) && ReactionKeyOfRow(rows[i]) !in t ==>
            ReactionKeyOfRow(rows[i]) in t' && t'[ReactionKeyOfRow(rows[i])].messageUserId == rows[i].messageUserId)
  {
    var b := ReactionBatch(rows);
    var t' := ApplyRows(t, b, OverwriteReactionCount);
    OverwritesObeyLaws();
    ApplyRowsFrame(t, b, OverwriteReactionCount);
    forall k | k in t
      ensures k in t' && t'[k].messageUserId == t[k].messageUserId
    {
      if k in KeysOf(b) {
        ApplyRowsValue(t, b, OverwriteReactionCount, k);
      }
    }
    forall i | 0 <= i < |rows| && FirstWithKey(b, i) && b[i].key !in t
      ensures b[i].key in t' && t'[b[i].key].messageUserId == b[i].fields.messageUserId
    {
      FirstFieldsAt(b, i);
      ApplyRowsValue(t, b, OverwriteReactionCount, b[i].key);
    }
  }

  /** `Db.insert_reaction_data`. After a committed batch every key of the batch
      holds the `reaction_count` of its last row; a key that existed keeps its
      `message_user_id`, and a new key takes the `message_user_id` of the first
      row that inserted it; every other key is as it was. An empty batch, or
      one that is rolled back, leaves the table unchanged. */
  function InsertReactionData(t: ReactionTable, rows: seq<DbReactionRow>, fault: Option<string>)
    : (w: Written<ReactionKey, ReactionFields>)
    ensures |rows| == 0 ==> w == Written(t, Skipped)
    ensures |rows| > 0 && fault.Some? ==> w == Written(t, RolledBack(fault.value))
    ensures |rows| > 0 && fault.None? ==>
      && w.outcome == Committed
      && (forall k :: k in w.table <==> k in t || exists i :: 0 <= i < |rows| && ReactionKeyOfRow(rows[i]) == k)
      && (forall k :: k in t && (forall i :: 0 <= i < |rows| ==> ReactionKeyOfRow(rows[i]) != k) ==>
            w.table[k] == t[k])
      && (forall i :: 0 <= i < |rows| && LastWithKey(ReactionBatch(rows), i) ==>
            ReactionKeyOfRow(rows[i]) in w.table &&
            w.table[ReactionKeyOfRow(rows[i])].reactionCount == rows[i].reactionCount)
      && (forall k :: k in t ==> k in w.table && w.table[k].messageUserId == t[k].messageUserId)
      && (forall i :: 0 <= i < |rows| && FirstWithKey(ReactionBatch(rows), i) && ReactionKeyOfRow(rows[i]) !in t ==>
            ReactionKeyOfRow(rows[i]) in w.table &&
            w.table[ReactionKeyOfRow(rows[i])].messageUserId == rows[i].messageUserId)
  {
    ReactionBatchKeys(rows);
    ReactionBatchCounts(t, rows);
    ReactionBatchMessageUsers(t, rows);
    InsertBatch(t, ReactionBatch(rows), OverwriteReactionCount, fault)
  }

  /** The ids a channel batch mentions are those of its records. */
  lemma ChannelBatchKeys(channels: seq<ChannelRecord>)
    ensures forall id :: id in KeysOf(ChannelBatch(channels)) <==>
      exists i :: 0 <= i < |channels| && channels[i].channelId == id
  {
    var b := ChannelBatch(channels);
    forall id ensures id in KeysOf(b) <==> exists i :: 0 <= i < |channels| && channels[i].channelId == id {
      KeysOfMembers(b, id);
      if exists i :: 0 <= i < |channels| && channels[i].channelId == id {
        var i :| 0 <= i < |channels| && channels[i].channelId == id;
        assert b[i].key == id;
      }
    }
  }

  /** After the loop, the last record with an id decides its name. */
  lemma ChannelBatchNames(t: ChannelTable, channels: seq<ChannelRecord>)
    ensures var t' := ApplyRows(t, ChannelBatch(channels), OverwriteChannelName);
      forall i :: 0 <= i < |channels| && LastWithKey(ChannelBatch(channels), i) ==>
        channels[i].channelId in t' && t'[channels[i].channelId] == channels[i].channelName
  {
    var b := ChannelBatch(channels);
    OverwritesObeyLaws();
    forall i | 0 <= i < |channels| && LastWithKey(b, i)
      ensures b[i].key in ApplyRows(t, b, OverwriteChannelName)
      ensures ApplyRows(t, b, OverwriteChannelName)[b[i].key] == b[i].fields
    {
      LastFieldsAt(b, i);
      ApplyRowsValue(t, b, OverwriteChannelName, b[i].key);
    }
  }

  /** `Db.insert_channel_data`. After a committed batch every channel id of the
      batch holds the name of its last record, and every other id is as it was;
      an empty batch, or one that is rolled back, leaves the table unchanged. */
  function InsertChannelData(t: ChannelTable, channels: seq<ChannelRecord>, fault: Option<string>)
    : (w: Written<string, string>)
    ensures |channels| == 0 ==> w == Written(t, Skipped)
    ensures |channels| > 0 && fault.Some? ==> w == Written(t, RolledBack(fault.value))
    ensures |channels| > 0 && fault.None? ==>
      && w.outcome == Committed
      && (forall id :: id in w.table <==> id in t || exists i :: 0 <= i < |channels| && channels[i].channelId == id)
      && (forall id :: id in t && (forall i :: 0 <= i < |channels| ==> channels[i].channelId != id) ==>
            w.table[id] == t[id])
      && (forall i :: 0 <= i < |channels| && LastWithKey(ChannelBatch(channels), i) ==>
            channels[i].channelId in w.table && w.table[channels[i].channelId] == channels[i].channelName)
  {
    ChannelBatchKeys(channels);
    ChannelBatchNames(t, channels);
    InsertBatch(t, ChannelBatch(channels), OverwriteChannelName, fault)
  }

  /** Re-running a message batch over the table it produced changes nothing. */
  lemma InsertMessageDataIdempotent(t: MessageTable, rows: seq<DbMessageRow>)
    ensures var once := InsertMessageData(t, rows, None).table;
            InsertMessageData(once, rows, None) == InsertMessageData(t, rows, None)
  {
    OverwritesObeyLaws();
    ApplyRowsIdempotent(t, MessageBatch(rows), OverwriteMessage);
  }

  /** Re-running a reaction batch over the table it produced changes nothing. */
  lemma InsertReactionDataIdempotent(t: ReactionTable, rows: seq<DbReactionRow>)
    ensures var once := InsertReactionData(t, rows, None).table;
            InsertReactionData(once, rows, None) == InsertReactionData(t, rows, None)
  {
    OverwritesObeyLaws();
    ApplyRowsIdempotent(t, ReactionBatch(rows), OverwriteReactionCount);
  }

  /** Re-running a channel batch over the table it produced changes nothing. */
  lemma InsertChannelDataIdempotent(t: ChannelTable, channels: seq<ChannelRecord>)
    ensures var once := InsertChannelData(t, channels, None).table;
            InsertChannelData(once, channels, None) == InsertChannelData(t, channels, None)
  {
    OverwritesObeyLaws();
    ApplyRowsIdempotent(t, ChannelBatch(channels), OverwriteChannelName);
  }

  // ---------------------------------------------------------------------------
  // write_channel_data_for_database

  datatype Tables = Tables(channels: ChannelTable, messages: MessageTable, reactions: ReactionTable)

  /** Whether the store raises while each of the three batches is written. */
  datatype SinkFaults = SinkFaults(channels: Option<string>, messages: Option<string>, reactions: Option<string>)

  /** The tables after the flush, and the error that stopped it, if any. */
  datatype Flushed = Flushed(tables: Tables, error: Option<string>)

  function MessageFieldsOf(m: Message): MessageFields {
    MessageFields(m.user, m.text, m.threadTs, m.replyCount)
  }

  /** The message rows of a run have pairwise distinct keys, so each of them is
      the last row with its key. */
  lemma DbMessageRowsDistinct(d: MessageData)
    ensures forall i :: 0 <= i < |DbMessageRows(d)| ==> LastWithKey(MessageBatch(DbMessageRows(d)), i)
  {
    var rows := DbMessageRows(d);
    var b := MessageBatch(rows);
    forall i, j | 0 <= i < j < |rows| ensures b[j].key != b[i].key {
      assert b[i].key == d.order[i] && b[j].key == d.order[j];
    }
  }

  /** A message batch of a whole run that is not rolled back stores every
      message of the run under its key, with its own columns. */
  lemma RunMessagesStored(t: MessageTable, d: MessageData, fault: Option<string>)
    requires !InsertMessageData(t, DbMessageRows(d), fault).outcome.RolledBack?
    ensures var w := InsertMessageData(t, DbMessageRows(d), fault);
      forall k :: k in d.entries ==> k in w.table && w.table[k] == MessageFieldsOf(d.entries[k])
  {
    var rows := DbMessageRows(d);
    var w := InsertMessageData(t, rows, fault);
    DbMessageRowsDistinct(d);
    forall k | k in d.entries ensures k in w.table && w.table[k] == MessageFieldsOf(d.entries[k]) {
      var i :| 0 <= i < |d.order| && d.order[i] == k;
      assert MessageKeyOfRow(rows[i]) == k;
    }
  }

  /** A channel batch that is not rolled back leaves exactly the old ids and the listed ones. */
  lemma ChannelListStored(t: ChannelTable, channelList: seq<ChannelRecord>, fault: Option<string>)
    requires !InsertChannelData(t, channelList, fault).outcome.RolledBack?
    ensures var w := InsertChannelData(t, channelList, fault);
      forall id :: id in t || (exists c :: c in channelList && c.channelId == id) <==> id in w.table
  {
    var w := InsertChannelData(t, channelList, fault);
    forall id ensures id in t || (exists c :: c in channelList && c.channelId == id) <==> id in w.table {
      if exists c :: c in channelList && c.channelId == id {
        var c :| c in channelList && c.channelId == id;
        var i :| 0 <= i < |channelList| && channelList[i] == c;
      }
    }
  }

  /** A run's message batch that is not rolled back adds exactly the run's keys
      and leaves every other stored message as it was. */
  lemma RunMessagesFrame(t: MessageTable, d: MessageData, fault: Option<string>)
    requires !InsertMessageData(t, DbMessageRows(d), fault).outcome.RolledBack?
    ensures var w := InsertMessageData(t, DbMessageRows(d), fault);
      && (forall k :: k in w.table <==> k in t || k in d.entries)
      && (forall k :: k in t && k !in d.entries ==> w.table[k] == t[k])
  {
    var rows := DbMessageRows(d);
    var w := InsertMessageData(t, rows, fault);
    forall k ensures (exists i :: 0 <= i < |rows| && MessageKeyOfRow(rows[i]) == k) <==> k in d.entries {
      if k in d.entries {
        var i :| 0 <= i < |d.order| && d.order[i] == k;
        assert MessageKeyOfRow(rows[i]) == k;
      }
    }
  }

  /** A run's reaction batch that is not rolled back adds exactly the run's
      reaction keys; the last row of a key sets its count, an existing row keeps
      its message author, a new row takes its first row's, and other rows are
      as they were. */
  lemma RunReactionsStored(t: ReactionTable, d: MessageData, fault: Option<string>)
    requires !InsertReactionData(t, DbReactionRows(d), fault).outcome.RolledBack?
    ensures var rows := DbReactionRows(d); var w := InsertReactionData(t, rows, fault).table;
      && (forall k :: k in w <==> k in t || exists i :: 0 <= i < |rows| && ReactionKeyOfRow(rows[i]) == k)
      && (forall i :: 0 <= i < |rows| && LastWithKey(ReactionBatch(rows), i) ==>
            ReactionKeyOfRow(rows[i]) in w && w[ReactionKeyOfRow(rows[i])].reactionCount == rows[i].reactionCount)
      && (forall k :: k in t ==> k in w && w[k].messageUserId == t[k].messageUserId)
      && (forall i :: 0 <= i < |rows| && FirstWithKey(ReactionBatch(rows), i) && ReactionKeyOfRow(rows[i]) !in t ==>
            ReactionKeyOfRow(rows[i]) in w && w[ReactionKeyOfRow(rows[i])].messageUserId == rows[i].messageUserId)
      && (forall k :: k in t && (forall i :: 0 <= i < |rows| ==> ReactionKeyOfRow(rows[i]) != k) ==> w[k] == t[k])
  {
  }

  /** `w` is `t` after a committed channel batch of `channelList`: the listed
      ids are added, the last record with an id sets its name, and every other
      id is as it was. */
  ghost predicate ChannelsWritten(t: ChannelTable, channelList: seq<ChannelRecord>, w: ChannelTable) {
    && (forall id :: id in w <==> id in t || exists i :: 0 <= i < |channelList| && channelList[i].channelId == id)
    && (forall i :: 0 <= i < |channelList| && LastWithKey(ChannelBatch(channelList), i) ==>
          channelList[i].channelId in w && w[channelList[i].channelId] == channelList[i].channelName)
    && (forall id :: id in t && (forall i :: 0 <= i < |channelList| ==> channelList[i].channelId != id) ==>
          w[id] == t[id])
  }

  /** `w` is `t` after a committed message batch of the run `d`: the run's keys
      are added, each run message is stored with its own columns, and every
      other message is as it was. */
  ghost predicate RunMessagesWritten(t: MessageTable, d: MessageData, w: MessageTable) {
    && (forall k :: k in w <==> k in t || k in d.entries)
    && (forall k :: k in t && k !in d.entries ==> w[k] == t[k])
    && (forall k :: k in d.entries ==> k in w && w[k] == MessageFieldsOf(d.entries[k]))
  }

  /** `w` is `t` after a committed reaction batch of the run `d`: the run's
      reaction keys are added, the last row for a key sets its count, an
      existing row keeps its message author, a new row takes its first row's,
      and every other row is as it was. */
  ghost predicate RunReactionsWritten(t: ReactionTable, d: MessageData, w: ReactionTable) {
    var rows := DbReactionRows(d);
    && (forall k :: k in w <==> k in t || exists i :: 0 <= i < |rows| && ReactionKeyOfRow(rows[i]) == k)
    && (forall i :: 0 <= i < |rows| && LastWithKey(ReactionBatch(rows), i) ==>
          ReactionKeyOfRow(rows[i]) in w && w[ReactionKeyOfRow(rows[i])].reactionCount == rows[i].reactionCount)
    && (forall k :: k in t ==> k in w && w[k].messageUserId == t[k].messageUserId)
    && (forall i :: 0 <= i < |rows| && FirstWithKey(ReactionBatch(rows), i) && ReactionKeyOfRow(rows[i]) !in t ==>
          ReactionKeyOfRow(rows[i]) in w && w[ReactionKeyOfRow(rows[i])].messageUserId == rows[i].messageUserId)
    && (forall k :: k in t && (forall i :: 0 <= i < |rows| ==> ReactionKeyOfRow(rows[i]) != k) ==> w[k] == t[k])
  }

  /** The reaction batch of a flush, over tables the earlier batches wrote. */
  function FlushReactionBatch(db: Tables, d: MessageData, fault: Option<string>): Flushed {
    var w := InsertReactionData(db.reactions, DbReactionRows(d), fault);
    if w.outcome.RolledBack? then Flushed(db, Some(w.outcome.error))
    else Flushed(db.(reactions := w.table), None)
  }

  /** The message batch of a flush, then its reaction batch if it was not rolled back. */
  function FlushRunBatches(db: Tables, d: MessageData, faults: SinkFaults): Flushed {
    var w := InsertMessageData(db.messages, DbMessageRows(d), faults.messages);
    if w.outcome.RolledBack? then Flushed(db, Some(w.outcome.error))
    else FlushReactionBatch(db.(messages := w.table), d, faults.reactions)
  }

  /** The three batches of `write_channel_data_for_database` in turn: the
      channel list, then the run's messages, then its reactions. The first batch
      that is rolled back stops the flush with its error. */
  function FlushBatches(db: Tables, d: MessageData, channelList: seq<ChannelRecord>, faults: SinkFaults): Flushed {
    var w := InsertChannelData(db.channels, channelList, faults.channels);
    if w.outcome.RolledBack? then Flushed(db, Some(w.outcome.error))
    else FlushRunBatches(db.(channels := w.table), d, faults)
  }

  /** How far the reaction batch gets. */
  lemma FlushReactionOutcome(db: Tables, d: MessageData, fault: Option<string>)
    ensures var r := FlushReactionBatch(db, d, fault);
      && (r.error.None? <==> ReactionUsersTotal(Entries(d)) == 0 || fault.None?)
      && (r.error.Some? ==> r.tables == db)
  {
  }

  /** How far the message and reaction batches get. */
  lemma FlushRunOutcome(db: Tables, d: MessageData, faults: SinkFaults)
    ensures var r := FlushRunBatches(db, d, faults);
      && (r.error.None? <==>
            && (|d.entries| == 0 || faults.messages.None?)
            && (ReactionUsersTotal(Entries(d)) == 0 || faults.reactions.None?))
      && (|d.entries| > 0 && faults.messages.Some? ==> r == Flushed(db, faults.messages))
      && (r.error.Some? ==> r.tables.reactions == db.reactions)
  {
    EntryCount(d);
    var w := InsertMessageData(db.messages, DbMessageRows(d), faults.messages);
    if !w.outcome.RolledBack? {
      FlushReactionOutcome(db.(messages := w.table), d, faults.reactions);
    }
  }

  /** How far the flush gets: which batches commit (or are skipped), and the error that stops it. */
  lemma FlushOutcome(db: Tables, d: MessageData, channelList: seq<ChannelRecord>, faults: SinkFaults)
    ensures var r := FlushBatches(db, d, channelList, faults);
      && (r.error.None? <==>
            && (|channelList| == 0 || faults.channels.None?)
            && (|d.entries| == 0 || faults.messages.None?)
            && (ReactionUsersTotal(Entries(d)) == 0 || faults.reactions.None?))
      && (|channelList| > 0 && faults.channels.Some? ==> r == Flushed(db, faults.channels))
      && ((|channelList| == 0 || faults.channels.None?) && |d.entries| > 0 && faults.messages.Some? ==>
            r.error == faults.messages && r.tables.messages == db.messages && r.tables.reactions == db.reactions)
      && (r.error.Some? ==> r.tables.reactions == db.reactions)
  {
    var c := InsertChannelData(db.channels, channelList, faults.channels);
    if !c.outcome.RolledBack? {
      FlushRunOutcome(db.(channels := c.table), d, faults);
    }
  }

  /** The reaction batch never touches the channel or message table. */
  lemma FlushReactionKeepsEarlier(db: Tables, d: MessageData, fault: Option<string>)
    ensures FlushReactionBatch(db, d, fault).tables.channels == db.channels
    ensures FlushReactionBatch(db, d, fault).tables.messages == db.messages
  {
  }

  /** The message and reaction batches never touch the channel table. */
  lemma FlushRunKeepsChannels(db: Tables, d: MessageData, faults: SinkFaults)
    ensures FlushRunBatches(db, d, faults).tables.channels == db.channels
  {
    var w := InsertMessageData(db.messages, DbMessageRows(d), faults.messages);
    if !w.outcome.RolledBack? {
      FlushReactionKeepsEarlier(db.(messages := w.table), d, faults.reactions);
    }
  }

  /** Once the channel batch commits or is skipped, the flush keeps its table. */
  lemma FlushChannelTable(db: Tables, d: MessageData, channelList: seq<ChannelRecord>, faults: SinkFaults)
    requires |channelList| == 0 || faults.channels.None?
    ensures var c := InsertChannelData(db.channels, channelList, faults.channels);
      !c.outcome.RolledBack? && FlushBatches(db, d, channelList, faults).tables.channels == c.table
  {
    var c := InsertChannelData(db.channels, channelList, faults.channels);
    assert !c.outcome.RolledBack?;
    FlushRunKeepsChannels(db.(channels := c.table), d, faults);
  }

  /** Once the message batch commits or is skipped as well, the flush keeps its table too. */
  lemma FlushMessageTable(db: Tables, d: MessageData, channelList: seq<ChannelRecord>, faults: SinkFaults)
    requires |channelList| == 0 || faults.channels.None?
    requires |d.entries| == 0 || faults.messages.None?
    ensures var m := InsertMessageData(db.messages, DbMessageRows(d), faults.messages);
      !m.outcome.RolledBack? && FlushBatches(db, d, channelList, faults).tables.messages == m.table
  {
    var c := InsertChannelData(db.channels, channelList, faults.channels);
    var m := InsertMessageData(db.messages, DbMessageRows(d), faults.messages);
    assert !c.outcome.RolledBack?;
    EntryCount(d);
    assert !m.outcome.RolledBack?;
    FlushReactionKeepsEarlier(db.(channels := c.table, messages := m.table), d, faults.reactions);
  }

  /** The channel table after the flush: once the channel batch commits, later failures do not undo it. */
  lemma FlushChannels(db: Tables, d: MessageData, channelList: seq<ChannelRecord>, faults: SinkFaults)
    ensures var r := FlushBatches(db, d, channelList, faults);
      && ((|channelList| == 0 || faults.channels.None?) ==> ChannelsWritten(db.channels, channelList, r.tables.channels))
      && (r.error.None? ==>
            forall id :: id in db.channels || (exists c :: c in channelList && c.channelId == id) <==> id in r.tables.channels)
  {
    if |channelList| == 0 || faults.channels.None? {
      FlushChannelTable(db, d, channelList, faults);
      ChannelListStored(db.channels, channelList, faults.channels);
    }
  }

  /** The message table after the flush: once the message batch commits, a later failure does not undo it. */
  lemma FlushMessages(db: Tables, d: MessageData, channelList: seq<ChannelRecord>, faults: SinkFaults)
    ensures var r := FlushBatches(db, d, channelList, faults);
      (|channelList| == 0 || faults.channels.None?) && (|d.entries| == 0 || faults.messages.None?) ==>
        RunMessagesWritten(db.messages, d, r.tables.messages)
  {
    if (|channelList| == 0 || faults.channels.None?) && (|d.entries| == 0 || faults.messages.None?) {
      FlushMessageTable(db, d, channelList, faults);
      RunMessagesStored(db.messages, d, faults.messages);
      RunMessagesFrame(db.messages, d, faults.messages);
    }
  }

  /** The reaction table after a flush with no failure. */
  lemma FlushReactions(db: Tables, d: MessageData, channelList: seq<ChannelRecord>, faults: SinkFaults)
    ensures var r := FlushBatches(db, d, channelList, faults);
      r.error.None? ==> RunReactionsWritten(db.reactions, d, r.tables.reactions)
  {
    if FlushBatches(db, d, channelList, faults).error.None? {
      RunReactionsStored(db.reactions, d, faults.reactions);
    }
  }

  /** `write_channel_data_for_database`: the channel list, then the run's
      messages, then its reactions, each as one batch. A batch that fails is
      rolled back and its error propagates, so the later batches are not
      written; an empty batch is skipped and cannot fail. */
  function WriteChannelDataForDatabase(db: Tables, d: MessageData, channelList: seq<ChannelRecord>,
                                       faults: SinkFaults): (r: Flushed)
    // the flush succeeds exactly when no non-empty batch fails
    ensures r.error.None? <==>
      && (|channelList| == 0 || faults.channels.None?)
      && (|d.entries| == 0 || faults.messages.None?)
      && (ReactionUsersTotal(Entries(d)) == 0 || faults.reactions.None?)
    // a failing channel batch leaves every table as it was
    ensures |channelList| > 0 && faults.channels.Some? ==> r == Flushed(db, faults.channels)
    // a failing message batch leaves the messages and reactions as they were
    ensures (|channelList| == 0 || faults.channels.None?) && |d.entries| > 0 && faults.messages.Some? ==>
      r.error == faults.messages && r.tables.messages == db.messages && r.tables.reactions == db.reactions
    ensures r.error.Some? ==> r.tables.reactions == db.reactions
    // the channel batch is committed before the later batches start, so their
    // failure does not undo it
    ensures (|channelList| == 0 || faults.channels.None?) ==> ChannelsWritten(db.channels, channelList, r.tables.channels)
    // likewise a committed message batch, whatever the reaction batch does
    ensures (|channelList| == 0 || faults.channels.None?) && (|d.entries| == 0 || faults.messages.None?) ==>
      RunMessagesWritten(db.messages, d, r.tables.messages)
    // channels: exactly the old ids and the listed ones
    ensures r.error.None? ==>
      forall id :: id in db.channels || (exists c :: c in channelList && c.channelId == id) <==> id in r.tables.channels
    ensures r.error.None? ==> RunMessagesWritten(db.messages, d, r.tables.messages)
    ensures r.error.None? ==> RunReactionsWritten(db.reactions, d, r.tables.reactions)
  {
    FlushOutcome(db, d, channelList, faults);
    FlushChannels(db, d, channelList, faults);
    FlushMessages(db, d, channelList, faults);
    FlushReactions(db, d, channelList, faults);
    FlushBatches(db, d, channelList, faults)
  }
}

=== FILE: paging.dfy ===
/**
  The two paginated reads of `SlackBot` in main.py, with the chat API replaced
  by the finite sequence of responses it gives to successive calls:
  `get_channels` follows `next_cursor` until it is empty or a call fails, and
  `get_channel_history` follows `has_more`, resuming after the last message
  gathered so far, joining the channel and repeating the call whenever the API
  answers `not_in_channel`.
 */
module Paging {
  import opened Basics
  import opened Records

  /** The answer to one API call: a page, or a `SlackApiError` with its error code. */
  datatype ApiResult<T> = Ok(value: T) | ApiError(code: string)

  /** A `conversations_list` page: its channels and `response_metadata.next_cursor`. */
  datatype ChannelsPage = ChannelsPage(channels: seq<RawChannel>, nextCursor: Option<string>)

  /** A `conversations_history` page. */
  datatype HistoryPage = HistoryPage(messages: seq<RawMessage>, hasMore: bool)

  /** The error code on which the bot joins the channel and calls again. */
  const NotInChannel: string := "not_in_channel"

  // ---------------------------------------------------------------------------
  // get_channels

  /** `if not cursor`: a missing or empty cursor ends the listing. */
  predicate CursorEnds(c: Option<string>) {
    c.None? || c.value == ""
  }

  /** Whether the listing loop makes another call after this response. */
  predicate ListingContinues(r: ApiResult<ChannelsPage>) {
    r.Ok? && !CursorEnds(r.value.nextCursor)
  }

  /** The channels a response contributes: none for an error. */
  function PageChannels(r: ApiResult<ChannelsPage>): seq<RawChannel> {
    if r.Ok? then r.value.channels else []
  }

  function ConcatChannels(rs: seq<ApiResult<ChannelsPage>>): seq<RawChannel>
    decreases |rs|
  {
    if |rs| == 0 then [] else PageChannels(rs[0]) + ConcatChannels(rs[1..])
  }

  /** What the listing loop returns, the cursor it passed to each call it made,
      and whether it left the loop (false: it would call again, but the given
      responses are exhausted). */
  datatype Listing = Listing(channels: seq<RawChannel>, cursors: seq<Option<string>>, finished: bool)

  /** The listing loop from the call that passes `cursor` on. */
  function ListFrom(responses: seq<ApiResult<ChannelsPage>>, cursor: Option<string>): (r: Listing)
    ensures |r.cursors| <= |responses|
    decreases |responses|
  {
    if |responses| == 0 then Listing([], [], false)
    else match responses[0]
      case ApiError(_) => Listing([], [cursor], true)
      case Ok(page) =>
        if CursorEnds(page.nextCursor) then Listing(page.channels, [cursor], true)
        else
          var rest := ListFrom(responses[1..], page.nextCursor);
          Listing(page.channels + rest.channels, [cursor] + rest.cursors, rest.finished)
  }

  /** `get_channels`: the first call passes no cursor. */
  function GetChannels(responses: seq<ApiResult<ChannelsPage>>): Listing {
    ListFrom(responses, None)
  }

  lemma ConcatChannelsPrefix(rs: seq<ApiResult<ChannelsPage>>, n: nat)
    requires 0 < n <= |rs|
    ensures ConcatChannels(rs[..n]) == PageChannels(rs[0]) + ConcatChannels(rs[1..][..n - 1])
  {
    assert rs[..n][1..] == rs[1..][..n - 1];
  }

  /** The listing loop makes `n` calls, where call `n` is the first that fails or
      returns an empty cursor (or the responses run out); it returns the
      concatenation of the channels of those `n` pages, and each call after the
      first passes the cursor the previous page returned. */
  lemma {:induction false} ListFromPages(responses: seq<ApiResult<ChannelsPage>>, cursor: Option<string>)
    ensures var r := ListFrom(responses, cursor); var n := |r.cursors|;
      && n <= |responses|
      && (n == 0 <==> |responses| == 0)
      && r.channels == ConcatChannels(responses[..n])
      && (forall i :: 0 <= i < n - 1 ==> ListingContinues(responses[i]))
      && (r.finished <==> n > 0 && !ListingContinues(responses[n - 1]))
      && (!r.finished ==> n == |responses|)
      && (n > 0 ==> r.cursors[0] == cursor)
      && (forall i :: 0 < i < n ==> r.cursors[i] == responses[i - 1].value.nextCursor)
    decreases |responses|
  {
    if |responses| > 0 && ListingContinues(responses[0]) {
      var page := responses[0].value;
      var rest := ListFrom(responses[1..], page.nextCursor);
      ListFromPages(responses[1..], page.nextCursor);
      var n := |rest.cursors| + 1;
      if n > 1 {
        ConcatChannelsPrefix(responses, n);
      } else {
        assert responses[..n] == [responses[0]];
      }
      forall i | 0 <= i < n - 1 ensures ListingContinues(responses[i]) {
        if i > 0 {
          assert responses[i] == responses[1..][i - 1];
        }
      }
    } else if |responses| > 0 {
      assert responses[..1] == [responses[0]];
    }
  }

  /** Two pages, the first with cursor "c1" and the second with an empty one:
      exactly two calls, returning both pages' channels in order. */
  lemma TwoPageListing(a: seq<RawChannel>, b: seq<RawChannel>, later: seq<ApiResult<ChannelsPage>>)
    ensures GetChannels([Ok(ChannelsPage(a, Some("c1"))), Ok(ChannelsPage(b, Some("")))] + later)
         == Listing(a + b, [None, Some("c1")], true)
  {
    var rs := [Ok(ChannelsPage(a, Some("c1"))), Ok(ChannelsPage(b, Some("")))] + later;
    assert rs[1..][0] == Ok(ChannelsPage(b, Some("")));
    assert ListFrom(rs[1..], Some("c1")) == Listing(b, [Some("c1")], true);
  }

  // ---------------------------------------------------------------------------
  // get_channel_history

  /** The `oldest` bound of a history call: the start of the crawl window, or
      the `ts` text of the message the previous pages ended with. */
  datatype Oldest = WindowStart | AfterTs(ts: string)

  /** Why the history loop ended: no more pages, an API error other than
      `not_in_channel` (the messages gathered so far are returned), an uncaught
      exception, or the end of the given responses. */
  datatype HistoryStop = NoMore | Abandoned(code: string) | Raised(fault: Fault) | ResponsesExhausted

  /** The messages gathered, the `oldest` passed to each call made, and the number of joins. */
  datatype History = History(messages: seq<RawMessage>, requests: seq<Oldest>, joins: nat, stop: HistoryStop)

  /** The `ts` of `messages[-1]`, when there is a last message and it has one. */
  function ResumeTs(msgs: seq<RawMessage>): Option<string> {
    if |msgs| == 0 then None else msgs[|msgs| - 1].ts
  }

  /** Whether the history loop makes another call after this response. */
  predicate HistoryContinues(r: ApiResult<HistoryPage>) {
    (r.Ok? && r.value.hasMore) || (r.ApiError? && r.code == NotInChannel)
  }

  function PageMessages(r: ApiResult<HistoryPage>): seq<RawMessage> {
    if r.Ok? then r.value.messages else []
  }

  function ConcatMessages(rs: seq<ApiResult<HistoryPage>>): seq<RawMessage>
    decreases |rs|
  {
    if |rs| == 0 then [] else PageMessages(rs[0]) + ConcatMessages(rs[1..])
  }

  function CountNotInChannel(rs: seq<ApiResult<HistoryPage>>): nat
    decreases |rs|
  {
    if |rs| == 0 then 0
    else (if rs[0] == ApiError(NotInChannel) then 1 else 0) + CountNotInChannel(rs[1..])
  }

  /** The history loop from a call with bound `oldest`, having gathered `acc`. */
  function HistoryFrom(responses: seq<ApiResult<HistoryPage>>, oldest: Oldest, acc: seq<RawMessage>): History
    decreases |responses|
  {
    if |responses| == 0 then History(acc, [], 0, ResponsesExhausted)
    else match responses[0]
      case ApiError(code) =>
        if code == NotInChannel then
          var rest := HistoryFrom(responses[1..], oldest, acc);
          rest.(requests := [oldest] + rest.requests, joins := rest.joins + 1)
        else History(acc, [oldest], 0, Abandoned(code))
      case Ok(page) =>
        var msgs := acc + page.messages;
        if !page.hasMore then History(msgs, [oldest], 0, NoMore)
        else match ResumeTs(msgs)
          case None =>
            History(msgs, [oldest], 0, Raised(if |msgs| == 0 then NoMessageToResumeFrom else ResumeMessageWithoutTs))
          case Some(ts) =>
            var rest := HistoryFrom(responses[1..], AfterTs(ts), msgs);
            rest.(requests := [oldest] + rest.requests)
  }

  /** `get_channel_history`: the first call is bounded by the crawl window's start. */
  function GetChannelHistory(responses: seq<ApiResult<HistoryPage>>): History {
    HistoryFrom(responses, WindowStart, [])
  }

  lemma ConcatMessagesPrefix(rs: seq<ApiResult<HistoryPage>>, n: nat)
    requires 0 < n <= |rs|
    ensures ConcatMessages(rs[..n]) == PageMessages(rs[0]) + ConcatMessages(rs[1..][..n - 1])
    ensures CountNotInChannel(rs[..n]) ==
      (if rs[0] == ApiError(NotInChannel) then 1 else 0) + CountNotInChannel(rs[1..][..n - 1])
  {
    assert rs[..n][1..] == rs[1..][..n - 1];
  }

  /** One turn of the history loop that makes another call: the rest of the
      loop runs from the next bound with what has been gathered so far. */
  lemma HistoryFromStep(responses: seq<ApiResult<HistoryPage>>, oldest: Oldest, acc: seq<RawMessage>)
    requires |responses| > 0 && HistoryContinues(responses[0])
    requires responses[0].ApiError? || ResumeTs(acc + responses[0].value.messages).Some?
    ensures var head := responses[0];
      var acc' := if head.Ok? then acc + head.value.messages else acc;
      var oldest' := if head.Ok? then AfterTs(ResumeTs(acc').value) else oldest;
      var r := HistoryFrom(responses, oldest, acc);
      var rest := HistoryFrom(responses[1..], oldest', acc');
      && r.requests == [oldest] + rest.requests
      && r.messages == rest.messages
      && r.stop == rest.stop
      && r.joins == rest.joins + (if head == ApiError(NotInChannel) then 1 else 0)
  {
  }

  /** The history loop makes `n` calls, each but the last answered by a page
      with `has_more` or by `not_in_channel`. It stops normally exactly when the
      last page has no more, and abandons exactly on another error code. */
  lemma {:induction false} HistoryFromCalls(responses: seq<ApiResult<HistoryPage>>, oldest: Oldest,
                                            acc: seq<RawMessage>)
    ensures var r := HistoryFrom(responses, oldest, acc); var n := |r.requests|;
      && n <= |responses|
      && (n == 0 <==> |responses| == 0)
      && (n > 0 ==> r.requests[0] == oldest)
      && (forall i :: 0 <= i < n - 1 ==> HistoryContinues(responses[i]))
      && (r.stop == NoMore <==> n > 0 && responses[n - 1].Ok? && !responses[n - 1].value.hasMore)
      && (r.stop.Abandoned? <==> n > 0 && responses[n - 1].ApiError? && responses[n - 1].code != NotInChannel)
      && (r.stop.Abandoned? ==> r.stop.code == responses[n - 1].code)
      && (r.stop == ResponsesExhausted ==> n == |responses|)
    decreases |responses|
  {
    if |responses| > 0 && HistoryContinues(responses[0]) {
      var head := responses[0];
      var acc' := if head.Ok? then acc + head.value.messages else acc;
      if head.ApiError? || ResumeTs(acc').Some? {
        var oldest' := if head.Ok? then AfterTs(ResumeTs(acc').value) else oldest;
        var r := HistoryFrom(responses, oldest, acc);
        var rest := HistoryFrom(responses[1..], oldest', acc');
        assert r.requests == [oldest] + rest.requests && r.stop == rest.stop;
        HistoryFromCalls(responses[1..], oldest', acc');
        forall i | 0 <= i < |r.requests| - 1 ensures HistoryContinues(responses[i]) {
          if i > 0 {
            assert responses[i] == responses[1..][i - 1];
          }
        }
      }
    }
  }

  /** The history loop raises exactly when its last call is answered by a page
      with `has_more` and there is no `ts` to resume from: `IndexError` when
      nothing has been gathered, `KeyError` when the last message lacks `ts`. */
  lemma {:induction false} HistoryFromRaisesOn(responses: seq<ApiResult<HistoryPage>>, oldest: Oldest,
                                               acc: seq<RawMessage>)
    ensures |HistoryFrom(responses, oldest, acc).requests| <= |responses|
    ensures var r := HistoryFrom(responses, oldest, acc); var n := |r.requests|;
      && (r.stop.Raised? <==>
            n > 0 && responses[n - 1].Ok? && responses[n - 1].value.hasMore && ResumeTs(r.messages).None?)
      && (r.stop.Raised? ==>
            r.stop.fault == (if |r.messages| == 0 then NoMessageToResumeFrom else ResumeMessageWithoutTs))
    decreases |responses|
  {
    HistoryFromCalls(responses, oldest, acc);
    if |responses| > 0 && HistoryContinues(responses[0]) {
      var head := responses[0];
      var acc' := if head.Ok? then acc + head.value.messages else acc;
      if head.ApiError? || ResumeTs(acc').Some? {
        var oldest' := if head.Ok? then AfterTs(ResumeTs(acc').value) else oldest;
        var r := HistoryFrom(responses, oldest, acc);
        var rest := HistoryFrom(responses[1..], oldest', acc');
        assert r.requests == [oldest] + rest.requests && r.stop == rest.stop && r.messages == rest.messages;
        HistoryFromRaisesOn(responses[1..], oldest', acc');
        HistoryFromCalls(responses[1..], oldest', acc');
        if |rest.requests| > 0 {
          assert responses[|r.requests| - 1] == responses[1..][|rest.requests| - 1];
        }
      }
    }
  }

  /** The same, with the gathered messages spelled out: the loop raises exactly
      when the last answer is a page with `has_more` and the messages of all
      pages received, after `acc`, give no `ts` to resume from. */
  lemma HistoryFromRaises(responses: seq<ApiResult<HistoryPage>>, oldest: Oldest, acc: seq<RawMessage>)
    ensures |HistoryFrom(responses, oldest, acc).requests| <= |responses|
    ensures var r := HistoryFrom(responses, oldest, acc); var n := |r.requests|;
      var gathered := acc + ConcatMessages(responses[..n]);
      && (r.stop.Raised? <==>
            n > 0 && responses[n - 1].Ok? && responses[n - 1].value.hasMore && ResumeTs(gathered).None?)
      && (r.stop.Raised? ==>
            r.stop.fault == (if |gathered| == 0 then NoMessageToResumeFrom else ResumeMessageWithoutTs))
  {
    HistoryFromRaisesOn(responses, oldest, acc);
    HistoryFromGathers(responses, oldest, acc);
  }

  /** The history loop returns the messages of the pages it received, after
      `acc`, and joins the channel once per `not_in_channel` answer. */
  lemma {:induction false} HistoryFromGathers(responses: seq<ApiResult<HistoryPage>>, oldest: Oldest,
                                              acc: seq<RawMessage>)
    ensures |HistoryFrom(responses, oldest, acc).requests| <= |responses|
    ensures var r := HistoryFrom(responses, oldest, acc); var n := |r.requests|;
      && r.messages == acc + ConcatMessages(responses[..n])
      && r.joins == CountNotInChannel(responses[..n])
    decreases |responses|
  {
    HistoryFromCalls(responses, oldest, acc);
    if |responses| > 0 {
      var head := responses[0];
      var r := HistoryFrom(responses, oldest, acc);
      var acc' := if head.Ok? then acc + head.value.messages else acc;
      if HistoryContinues(head) && (head.ApiError? || ResumeTs(acc').Some?) {
        var oldest' := if head.Ok? then AfterTs(ResumeTs(acc').value) else oldest;
        var rest := HistoryFrom(responses[1..], oldest', acc');
        HistoryFromStep(responses, oldest, acc);
        HistoryFromGathers(responses[1..], oldest', acc');
        ConcatMessagesPrefix(responses, |r.requests|);
        assert acc' + ConcatMessages(responses[1..][..|rest.requests|]) == acc + ConcatMessages(responses[..|r.requests|]);
      } else {
        assert |r.requests| == 1;
        assert responses[..1] == [head];
      }
    }
  }

  /** After a page with `has_more`, the next call resumes from the `ts` of the
      last message gathered so far. */
  lemma {:induction false} HistoryFromResumes(responses: seq<ApiResult<HistoryPage>>, oldest: Oldest,
                                              acc: seq<RawMessage>, i: nat)
    requires i + 1 < |HistoryFrom(responses, oldest, acc).requests|
    requires i < |responses| && responses[i].Ok?
    ensures var gathered := acc + ConcatMessages(responses[..i + 1]);
      && ResumeTs(gathered).Some?
      && HistoryFrom(responses, oldest, acc).requests[i + 1] == AfterTs(ResumeTs(gathered).value)
    decreases |responses|
  {
    var r := HistoryFrom(responses, oldest, acc);
    var head := responses[0];
    var acc' := if head.Ok? then acc + head.value.messages else acc;
    assert head.ApiError? || ResumeTs(acc').Some?;
    var oldest' := if head.Ok? then AfterTs(ResumeTs(acc').value) else oldest;
    var rest := HistoryFrom(responses[1..], oldest', acc');
    assert r.requests == [oldest] + rest.requests;
    if i == 0 {
      assert responses[..1] == [head];
    } else {
      assert responses[1..][i - 1] == responses[i];
      HistoryFromResumes(responses[1..], oldest', acc', i - 1);
      ConcatMessagesPrefix(responses, i + 1);
      assert acc' + ConcatMessages(responses[1..][..i]) == acc + ConcatMessages(responses[..i + 1]);
    }
  }

  /** After `not_in_channel` (and the join), the next call repeats the same bound. */
  lemma {:induction false} HistoryFromRetriesSameBound(responses: seq<ApiResult<HistoryPage>>, oldest: Oldest,
                                                       acc: seq<RawMessage>, i: nat)
    requires i + 1 < |HistoryFrom(responses, oldest, acc).requests|
    requires i < |responses| && responses[i] == ApiError(NotInChannel)
    ensures var r := HistoryFrom(responses, oldest, acc); r.requests[i + 1] == r.requests[i]
    decreases |responses|
  {
    var r := HistoryFrom(responses, oldest, acc);
    var head := responses[0];
    var acc' := if head.Ok? then acc + head.value.messages else acc;
    assert head.ApiError? || ResumeTs(acc').Some?;
    var oldest' := if head.Ok? then AfterTs(ResumeTs(acc').value) else oldest;
    var rest := HistoryFrom(responses[1..], oldest', acc');
    assert r.requests == [oldest] + rest.requests;
    if i == 0 {
      assert |rest.requests| > 0;
      HistoryFromCalls(responses[1..], oldest', acc');
    } else {
      assert responses[1..][i - 1] == responses[i];
      HistoryFromRetriesSameBound(responses[1..], oldest', acc', i - 1);
    }
  }

  function Repeat<T>(x: T, n: nat): (s: seq<T>)
    ensures |s| == n
    ensures forall i :: 0 <= i < n ==> s[i] == x
  {
    seq(n, _ => x)
  }

  /** Nothing bounds the join-and-retry: `n` consecutive `not_in_channel`
      answers cause `n` joins and `n` repetitions of the same call before the
      page that ends the loop. */
  lemma {:induction false} NotInChannelRetriesUnbounded(n: nat, page: HistoryPage, oldest: Oldest,
                                                        acc: seq<RawMessage>)
    requires !page.hasMore
    ensures var r := HistoryFrom(Repeat(ApiError(NotInChannel), n) + [Ok(page)], oldest, acc);
      && r.joins == n
      && r.requests == Repeat(oldest, n + 1)
      && r.messages == acc + page.messages
      && r.stop == NoMore
    decreases n
  {
    var rs := Repeat(ApiError(NotInChannel), n) + [Ok(page)];
    if n > 0 {
      assert rs[1..] == Repeat(ApiError(NotInChannel), n - 1) + [Ok(page)];
      NotInChannelRetriesUnbounded(n - 1, page, oldest, acc);
      assert [oldest] + Repeat(oldest, n) == Repeat(oldest, n + 1);
    }
  }
}

=== FILE: records.dfy ===
/**
  The entities of the exporter: raw API records as the chat platform delivers
  them (with optional keys), and the normalised `Reaction`/`Message` records
  built from them by `process_message` (main.py).
 */
module Records {
  import opened Basics

  /** A point in time with sub-second precision. The model only ever compares
      instants for equality, so their representation does not matter. */
  type Instant = int

  /** The conversion of the API's fractional-second timestamp text into an
      instant (`datetime.fromtimestamp(float(text))`). `None` stands for the
      `ValueError` that `float` raises on a malformed text. Every operation
      takes it as a parameter and assumes nothing about it: two different texts
      may denote the same instant. That the empty text is rejected, as `float`
      rejects it, is the separate property `RejectsEmpty`. */
  type TimestampParser = string -> Option<Instant>

  /** `float("")` raises, so a conversion faithful to main.py rejects the empty text. */
  predicate RejectsEmpty(parse: TimestampParser) {
    parse("") == None
  }

  /** One reaction of a raw message; `users` may be absent. */
  datatype RawReaction = RawReaction(name: string, count: int, users: Option<seq<string>>)

  /** A raw message or reply record; every key except the reaction name/count may be absent. */
  datatype RawMessage = RawMessage(
    ts: Option<string>,
    user: Option<string>,
    text: Option<string>,
    threadTs: Option<string>,
    replyCount: Option<int>,
    reactions: Option<seq<RawReaction>>)

  /** A raw channel record of the channel-list endpoint. */
  datatype RawChannel = RawChannel(id: string, name: string, isArchived: bool)

  /** The `Reaction` dataclass. */
  datatype Reaction = Reaction(name: string, count: int, users: seq<string>)

  /** The `Message` dataclass. */
  datatype Message = Message(
    channelId: string,
    channelName: string,
    ts: Instant,
    user: string,
    text: string,
    threadTs: Option<Instant>,
    replyCount: int,
    reactions: seq<Reaction>)

  /** The identity of a message: the key of the run-wide store and of the messages table. */
  datatype MessageKey = MessageKey(channelId: string, ts: Instant)

  function KeyOf(m: Message): MessageKey {
    MessageKey(m.channelId, m.ts)
  }

  /** A row of the channels table (a `SlackChannels` object). */
  datatype ChannelRecord = ChannelRecord(channelId: string, channelName: string)

  /** The exceptions main.py does not catch; any of them aborts the whole run. */
  datatype Fault =
    | BadTimestamp(text: string)   // `float(text)` raised ValueError
    | NoMessageToResumeFrom        // `messages[-1]` on an empty list raised IndexError
    | ResumeMessageWithoutTs       // `messages[-1]["ts"]` raised KeyError

  /** The timestamp text `process_message` converts: a missing `ts` is read as "". */
  function TsText(raw: RawMessage): string {
    raw.ts.GetOr("")
  }

  /** The thread timestamp text: a missing `thread_ts` is read as "". */
  function ThreadText(raw: RawMessage): string {
    raw.threadTs.GetOr("")
  }

  function NormalizeReactions(rs: seq<RawReaction>): (out: seq<Reaction>)
    ensures |out| == |rs|
    ensures forall i :: 0 <= i < |rs| ==>
      && out[i].name == rs[i].name
      && out[i].count == rs[i].count
      && (rs[i].users.None? ==> out[i].users == [])
      && (rs[i].users.Some? ==> out[i].users == rs[i].users.value)
  {
    seq(|rs|, i requires 0 <= i < |rs| => Reaction(rs[i].name, rs[i].count, rs[i].users.GetOr([])))
  }

  /** The record-building half of `process_message`: converts the timestamps,
      fills in the defaults for missing keys and copies the reactions. Fails
      exactly when a timestamp text that gets converted does not parse; an empty
      or missing `thread_ts` is not converted and becomes `None`. */
  function Normalize(raw: RawMessage, channelId: string, channelName: string, parse: TimestampParser)
    : (r: Result<Message, Fault>)
    ensures r.Failure? <==>
      parse(TsText(raw)).None? || (ThreadText(raw) != "" && parse(ThreadText(raw)).None?)
    ensures r.Success? ==>
      && KeyOf(r.value) == MessageKey(channelId, parse(TsText(raw)).value)
      && r.value.channelName == channelName
      && r.value.user == raw.user.GetOr("")
      && r.value.text == raw.text.GetOr("")
    // missing thread_ts yields None; a present non-empty one yields its instant
    ensures r.Success? && raw.threadTs.None? ==> r.value.threadTs.None?
    ensures r.Success? ==>
      (r.value.threadTs.None? <==> ThreadText(raw) == "") &&
      (ThreadText(raw) != "" ==> r.value.threadTs == parse(ThreadText(raw)))
    // missing reply_count yields 0
    ensures r.Success? && raw.replyCount.None? ==> r.value.replyCount == 0
    ensures r.Success? && raw.replyCount.Some? ==> r.value.replyCount == raw.replyCount.value
    // a missing reactions list yields no reactions; a reaction without users gets an empty list
    ensures r.Success? && raw.reactions.None? ==> r.value.reactions == []
    ensures r.Success? && raw.reactions.Some? ==>
      && |r.value.reactions| == |raw.reactions.value|
      && forall i :: 0 <= i < |raw.reactions.value| ==>
           && r.value.reactions[i].name == raw.reactions.value[i].name
           && r.value.reactions[i].count == raw.reactions.value[i].count
           && (raw.reactions.value[i].users.None? ==> r.value.reactions[i].users == [])
           && (raw.reactions.value[i].users.Some? ==>
                 r.value.reactions[i].users == raw.reactions.value[i].users.value)
  {
    var tsText := TsText(raw);
    var threadText := ThreadText(raw);
    match parse(tsText)
    case None => Failure(BadTimestamp(tsText))
    case Some(ts) =>
      if threadText != "" && parse(threadText).None? then
        Failure(BadTimestamp(threadText))
      else
        var threadTs := if threadText == "" then None else parse(threadText);
        Success(Message(
          channelId, channelName, ts,
          raw.user.GetOr(""), raw.text.GetOr(""),
          threadTs, raw.replyCount.GetOr(0),
          NormalizeReactions(raw.reactions.GetOr([]))))
  }

  /** With a conversion that rejects the empty text, a record without `ts`
      never yields a message: `process_message` raises on it. */
  lemma MissingTsFails(raw: RawMessage, channelId: string, channelName: string, parse: TimestampParser)
    requires RejectsEmpty(parse)
    requires raw.ts.None?
    ensures Normalize(raw, channelId, channelName, parse) == Failure(BadTimestamp(""))
  {
  }
}

=== FILE: rows.dfy ===
/**
  The row builders of `write_channel_data_for_csv` and
  `write_channel_data_for_database` (main.py): one message row per stored
  message, and one reaction row per (reaction, reacting user) pair, each
  carrying the reaction's own `count` and the message's identity and author.
 */
module Rows {
  import opened Basics
  import opened Records
  import opened RunStore

  /** One (message, reaction, reacting user) triple: the source of one reaction row. */
  datatype Flat = Flat(message: Message, reaction: Reaction, user: string)

  /** The number of users listed over a sequence of reactions. */
  function UsersTotal(rs: seq<Reaction>): nat {
    if |rs| == 0 then 0 else |rs[0].users| + UsersTotal(rs[1..])
  }

  /** The block of triples for one reaction: one per listed user, in list order. */
  function ReactionBlock(m: Message, r: Reaction): (b: seq<Flat>)
    ensures |b| == |r.users|
    ensures forall j :: 0 <= j < |r.users| ==> b[j] == Flat(m, r, r.users[j])
    ensures forall f :: f in b <==> f.message == m && f.reaction == r && f.user in r.users
  {
    var b := seq(|r.users|, j requires 0 <= j < |r.users| => Flat(m, r, r.users[j]));
    forall f: Flat | f.message == m && f.reaction == r && f.user in r.users ensures f in b {
      var j :| 0 <= j < |r.users| && r.users[j] == f.user;
      assert b[j] == f;
    }
    b
  }

  /** `for r in m.reactions: for u in r.users: ...` */
  function FlatsFor(m: Message, rs: seq<Reaction>): seq<Flat>
    decreases |rs|
  {
    if |rs| == 0 then [] else ReactionBlock(m, rs[0]) + FlatsFor(m, rs[1..])
  }

  /** The triples of a message's reactions. */
  function MessageFlats(m: Message): seq<Flat> {
    FlatsFor(m, m.reactions)
  }

  /** The triples of a sequence of messages, message after message. */
  function AllFlats(ms: seq<Message>): seq<Flat>
    decreases |ms|
  {
    if |ms| == 0 then [] else MessageFlats(ms[0]) + AllFlats(ms[1..])
  }

  /** The number of users listed over the reactions of a sequence of messages. */
  function ReactionUsersTotal(ms: seq<Message>): nat
    decreases |ms|
  {
    if |ms| == 0 then 0 else UsersTotal(ms[0].reactions) + ReactionUsersTotal(ms[1..])
  }

  /** The flattening distributes over concatenation of the reaction list. */
  lemma {:induction false} FlatsForAppend(m: Message, a: seq<Reaction>, b: seq<Reaction>)
    ensures FlatsFor(m, a + b) == FlatsFor(m, a) + FlatsFor(m, b)
    decreases |a|
  {
    if |a| == 0 {
      assert a + b == b;
    } else {
      assert (a + b)[0] == a[0];
      assert (a + b)[1..] == a[1..] + b;
      FlatsForAppend(m, a[1..], b);
      calc {
        FlatsFor(m, a + b);
        ReactionBlock(m, a[0]) + FlatsFor(m, a[1..] + b);
        ReactionBlock(m, a[0]) + (FlatsFor(m, a[1..]) + FlatsFor(m, b));
        (ReactionBlock(m, a[0]) + FlatsFor(m, a[1..])) + FlatsFor(m, b);
      }
    }
  }

  /** A message yields as many reaction triples as users are listed over its reactions. */
  lemma {:induction false} FlatsForCount(m: Message, rs: seq<Reaction>)
    ensures |FlatsFor(m, rs)| == UsersTotal(rs)
    decreases |rs|
  {
    if |rs| > 0 {
      FlatsForCount(m, rs[1..]);
    }
  }

  /** The triples of reaction `i` are one contiguous block of `|users|` triples,
      one per listed user in order, each carrying that reaction: a reaction with
      an empty user list yields no triple at all. */
  lemma {:induction false} FlatsForBlock(m: Message, rs: seq<Reaction>, i: nat)
    requires i < |rs|
    ensures FlatsFor(m, rs) == FlatsFor(m, rs[..i]) + ReactionBlock(m, rs[i]) + FlatsFor(m, rs[i + 1..])
  {
    assert rs == rs[..i] + rs[i..];
    FlatsForAppend(m, rs[..i], rs[i..]);
    assert rs[i..][1..] == rs[i + 1..];
  }

  /** A triple belongs to a message's flattening exactly when it names that
      message, one of its reactions and a user listed for that reaction. */
  lemma {:induction false} FlatsForMembers(m: Message, rs: seq<Reaction>, f: Flat)
    ensures f in FlatsFor(m, rs) <==>
      f.message == m && exists i :: 0 <= i < |rs| && f.reaction == rs[i] && f.user in rs[i].users
    decreases |rs|
  {
    if |rs| > 0 {
      FlatsForMembers(m, rs[1..], f);
      if f in FlatsFor(m, rs[1..]) {
        var i :| 0 <= i < |rs[1..]| && f.reaction == rs[1..][i] && f.user in rs[1..][i].users;
        assert f.reaction == rs[i + 1];
      }
      if f.message == m && f.reaction == rs[0] && f.user in rs[0].users {
        var j :| 0 <= j < |rs[0].users| && rs[0].users[j] == f.user;
        assert ReactionBlock(m, rs[0])[j] == f;
      }
      if f.message == m && exists i :: 0 <= i < |rs| && f.reaction == rs[i] && f.user in rs[i].users {
        var i :| 0 <= i < |rs| && f.reaction == rs[i] && f.user in rs[i].users;
        if i > 0 {
          assert rs[1..][i - 1] == rs[i];
        }
      }
    }
  }

  lemma {:induction false} AllFlatsCount(ms: seq<Message>)
    ensures |AllFlats(ms)| == ReactionUsersTotal(ms)
    decreases |ms|
  {
    if |ms| > 0 {
      FlatsForCount(ms[0], ms[0].reactions);
      AllFlatsCount(ms[1..]);
    }
  }

  /** A triple belongs to the flattening of a message sequence exactly when it
      names one of those messages, one of its reactions and a listed user. */
  lemma {:induction false} AllFlatsMembers(ms: seq<Message>, f: Flat)
    ensures f in AllFlats(ms) <==>
      && f.message in ms
      && exists i :: 0 <= i < |f.message.reactions| && f.reaction == f.message.reactions[i]
                     && f.user in f.message.reactions[i].users
    decreases |ms|
  {
    if |ms| > 0 {
      FlatsForMembers(ms[0], ms[0].reactions, f);
      AllFlatsMembers(ms[1..], f);
      assert f.message in ms <==> f.message == ms[0] || f.message in ms[1..] by {
        assert ms == [ms[0]] + ms[1..];
      }
    }
  }

  // ---------------------------------------------------------------------------
  // CSV variant

  /** A line of a CSV artifact: the fixed header, or one data row. */
  datatype CsvLine<R> = Header(columns: seq<string>) | Line(row: R)

  const MessageColumns: seq<string> :=
    ["channel_id", "channel_name", "ts", "user", "text", "thread_ts", "reply_count"]
  const ReactionColumns: seq<string> :=
    ["channel_id", "channel_name", "ts", "user", "reaction_name", "reaction_count", "reaction_user"]

  datatype CsvMessageRow = CsvMessageRow(
    channelId: string, channelName: string, ts: Instant, user: string, text: string,
    threadTs: Option<Instant>, replyCount: int)

  datatype CsvReactionRow = CsvReactionRow(
    channelId: string, channelName: string, ts: Instant, user: string,
    reactionName: string, reactionCount: int, reactionUser: string)

  function CsvMessageRowOf(m: Message): CsvMessageRow {
    CsvMessageRow(m.channelId, m.channelName, m.ts, m.user, m.text, m.threadTs, m.replyCount)
  }

  function CsvReactionRowOf(f: Flat): CsvReactionRow {
    CsvReactionRow(f.message.channelId, f.message.channelName, f.message.ts, f.message.user,
                   f.reaction.name, f.reaction.count, f.user)
  }

  /** The lines of the messages file: the header, then one row per stored message in insertion order. */
  function CsvMessageLines(d: MessageData): (lines: seq<CsvLine<CsvMessageRow>>)
    ensures |lines| == |d.order| + 1 == |d.entries| + 1
    ensures lines[0] == Header(MessageColumns)
    ensures forall i :: 0 <= i < |d.order| ==> lines[i + 1] == Line(CsvMessageRowOf(d.entries[d.order[i]]))
    ensures forall k :: k in d.entries ==> Line(CsvMessageRowOf(d.entries[k])) in lines
  {
    EntryCount(d);
    var ms := Entries(d);
    var lines := [Header(MessageColumns)] + seq(|ms|, i requires 0 <= i < |ms| => Line(CsvMessageRowOf(ms[i])));
    forall k | k in d.entries ensures Line(CsvMessageRowOf(d.entries[k])) in lines {
      var i :| 0 <= i < |d.order| && d.order[i] == k;
      assert lines[i + 1] == Line(CsvMessageRowOf(d.entries[k]));
    }
    lines
  }

  /** Every (stored message, reaction, listed user) triple is among the flattened triples. */
  lemma FlatComplete(d: MessageData, m: Message, r: Reaction, u: string)
    requires m in d.entries.Values && r in m.reactions && u in r.users
    ensures Flat(m, r, u) in AllFlats(Entries(d))
  {
    var i :| 0 <= i < |m.reactions| && m.reactions[i] == r;
    AllFlatsMembers(Entries(d), Flat(m, r, u));
  }

  /** The lines of the reactions file: the header, then one row per
      (stored message, reaction, listed user), none missing. */
  function CsvReactionLines(d: MessageData): (lines: seq<CsvLine<CsvReactionRow>>)
    ensures |lines| == ReactionUsersTotal(Entries(d)) + 1
    ensures lines[0] == Header(ReactionColumns)
    ensures forall i :: 1 <= i < |lines| ==> lines[i].Line?
    ensures forall m, r, u :: m in d.entries.Values && r in m.reactions && u in r.users ==>
      Line(CsvReactionRow(m.channelId, m.channelName, m.ts, m.user, r.name, r.count, u)) in lines
  {
    var fs := AllFlats(Entries(d));
    AllFlatsCount(Entries(d));
    var lines := [Header(ReactionColumns)] + seq(|fs|, i requires 0 <= i < |fs| => Line(CsvReactionRowOf(fs[i])));
    forall m, r, u | m in d.entries.Values && r in m.reactions && u in r.users
      ensures Line(CsvReactionRow(m.channelId, m.channelName, m.ts, m.user, r.name, r.count, u)) in lines
    {
      FlatComplete(d, m, r, u);
      var i :| 0 <= i < |fs| && fs[i] == Flat(m, r, u);
      assert lines[i + 1] == Line(CsvReactionRowOf(fs[i]));
    }
    lines
  }

  // ---------------------------------------------------------------------------
  // Database variant

  datatype DbMessageRow = DbMessageRow(
    channelId: string, ts: Instant, userId: string, text: string,
    threadTs: Option<Instant>, replyCount: int)

  datatype DbReactionRow = DbReactionRow(
    channelId: string, ts: Instant, messageUserId: string,
    reactionName: string, reactionCount: int, reactionUserId: string)

  function DbMessageRowOf(m: Message): DbMessageRow {
    DbMessageRow(m.channelId, m.ts, m.user, m.text, m.threadTs, m.replyCount)
  }

  function DbReactionRowOf(f: Flat): DbReactionRow {
    DbReactionRow(f.message.channelId, f.message.ts, f.message.user,
                  f.reaction.name, f.reaction.count, f.user)
  }

  /** The message dictionaries handed to `insert_message_data`: one per stored message. */
  function DbMessageRows(d: MessageData): (rows: seq<DbMessageRow>)
    ensures |rows| == |d.order| == |d.entries|
    ensures forall i :: 0 <= i < |rows| ==>
      MessageKey(rows[i].channelId, rows[i].ts) == d.order[i] &&
      rows[i] == DbMessageRowOf(d.entries[d.order[i]])
  {
    EntryCount(d);
    var ms := Entries(d);
    seq(|ms|, i requires 0 <= i < |ms| => DbMessageRowOf(ms[i]))
  }

  /** The reaction dictionaries handed to `insert_reaction_data`: one per
      (stored message, reaction, listed user), none missing. */
  function DbReactionRows(d: MessageData): (rows: seq<DbReactionRow>)
    ensures |rows| == ReactionUsersTotal(Entries(d))
    ensures forall m, r, u :: m in d.entries.Values && r in m.reactions && u in r.users ==>
      DbReactionRow(m.channelId, m.ts, m.user, r.name, r.count, u) in rows
  {
    var fs := AllFlats(Entries(d));
    AllFlatsCount(Entries(d));
    var rows := seq(|fs|, i requires 0 <= i < |fs| => DbReactionRowOf(fs[i]));
    forall m, r, u | m in d.entries.Values && r in m.reactions && u in r.users
      ensures DbReactionRow(m.channelId, m.ts, m.user, r.name, r.count, u) in rows
    {
      FlatComplete(d, m, r, u);
      var i :| 0 <= i < |fs| && fs[i] == Flat(m, r, u);
      assert rows[i] == DbReactionRowOf(fs[i]);
    }
    rows
  }

  /** Every reaction row, in either variant, carries the message's channel,
      timestamp and author, and the name and `count` of a reaction of that
      message whose user list holds the row's reacting user. */
  lemma ReactionRowsFaithful(d: MessageData, i: nat)
    requires i < ReactionUsersTotal(Entries(d))
    ensures var row := DbReactionRows(d)[i];
      exists m, r ::
        && m in d.entries.Values
        && r in m.reactions
        && row == DbReactionRow(m.channelId, m.ts, m.user, r.name, r.count, row.reactionUserId)
        && row.reactionUserId in r.users
        && CsvReactionLines(d)[i + 1] ==
             Line(CsvReactionRow(m.channelId, m.channelName, m.ts, m.user, r.name, r.count, row.reactionUserId))
  {
    var ms := Entries(d);
    var fs := AllFlats(ms);
    AllFlatsCount(ms);
    var f := fs[i];
    AllFlatsMembers(ms, f);
    var j :| 0 <= j < |f.message.reactions| && f.reaction == f.message.reactions[j]
             && f.user in f.message.reactions[j].users;
    var n :| 0 <= n < |ms| && ms[n] == f.message;
    assert f.message in d.entries.Values by {
      assert d.order[n] in d.entries;
    }
  }
}

=== FILE: run_store.dfy ===
/**
  The run-wide `message_data` dictionary of main.py: messages keyed by
  `(channel_id, ts)`, iterated in insertion order, into which
  `process_message` inserts a normalised message only when its key is new,
  so the first record seen for a key wins.
 */
module RunStore {
  import opened Basics
  import opened Records

  /** An insertion-ordered dictionary: the keys in insertion order and the entries. */
  datatype Dict = Dict(order: seq<MessageKey>, entries: map<MessageKey, Message>)

  ghost predicate NoDuplicates<T>(s: seq<T>) {
    forall i, j :: 0 <= i < j < |s| ==> s[i] != s[j]
  }

  /** The order lists every key exactly once, and each entry is stored under its own key. */
  ghost predicate WellFormed(d: Dict) {
    && NoDuplicates(d.order)
    && (forall k :: k in d.entries <==> k in d.order)
    && (forall k :: k in d.entries ==> KeyOf(d.entries[k]) == k)
  }

  type MessageData = d: Dict | WellFormed(d) witness Dict([], map[])

  /** The dictionary `message_data = {}` a run starts from. */
  function Empty(): (d: MessageData)
    ensures |d.entries| == 0
  {
    Dict([], map[])
  }

  /** The stored messages in insertion order (`message_data.items()`). */
  function Entries(d: MessageData): (ms: seq<Message>)
    ensures |ms| == |d.order|
    ensures forall i :: 0 <= i < |d.order| ==> ms[i] == d.entries[d.order[i]]
    // every stored message appears, nothing else does, and no key appears twice
    ensures forall m :: m in ms <==> m in d.entries.Values
    ensures forall i, j :: 0 <= i < j < |ms| ==> KeyOf(ms[i]) != KeyOf(ms[j])
  {
    var ms := seq(|d.order|, i requires 0 <= i < |d.order| => d.entries[d.order[i]]);
    forall m | m in d.entries.Values ensures m in ms {
      var k :| k in d.entries && d.entries[k] == m;
      var i :| 0 <= i < |d.order| && d.order[i] == k;
      assert ms[i] == m;
    }
    ms
  }

  /** `if key not in message_data: message_data[key] = m`. The first message
      stored under a key is never replaced, every other entry is left alone,
      and a new key goes to the end of the iteration order. */
  function Insert(d: MessageData, m: Message): (r: MessageData)
    ensures r.entries.Keys == d.entries.Keys + {KeyOf(m)}
    ensures forall k :: k in d.entries ==> r.entries[k] == d.entries[k]
    ensures KeyOf(m) !in d.entries ==> r.entries[KeyOf(m)] == m && r.order == d.order + [KeyOf(m)]
    ensures KeyOf(m) in d.entries ==> r.order == d.order
  {
    var k := KeyOf(m);
    if k in d.entries then d
    else
      var r := Dict(d.order + [k], d.entries[k := m]);
      assert WellFormed(r) by {
        assert k !in d.order;
        forall i, j | 0 <= i < j < |r.order| ensures r.order[i] != r.order[j] {
          if j == |d.order| {
            assert r.order[i] == d.order[i];
          }
        }
      }
      r
  }

  /** `process_message`: normalise the raw record, then insert it first-wins.
      A record that fails to normalise raises, leaving the dictionary as it was. */
  function ProcessMessage(d: MessageData, raw: RawMessage, channelId: string, channelName: string,
                          parse: TimestampParser): (r: Result<MessageData, Fault>)
    ensures r.Failure? <==> Normalize(raw, channelId, channelName, parse).Failure?
    ensures r.Success? ==>
      var key := MessageKey(channelId, parse(TsText(raw)).value);
      && r.value.entries.Keys == d.entries.Keys + {key}
      && (forall k :: k in d.entries ==> r.value.entries[k] == d.entries[k])
      && (key in d.entries ==> r.value == d)
      && (key !in d.entries ==>
            && r.value.entries[key] == Normalize(raw, channelId, channelName, parse).value
            && r.value.order == d.order + [key])
  {
    var m :- Normalize(raw, channelId, channelName, parse);
    Success(Insert(d, m))
  }

  /** Processing the same raw record a second time in a run changes nothing. */
  lemma ProcessMessageIdempotent(d: MessageData, raw: RawMessage, channelId: string, channelName: string,
                                 parse: TimestampParser)
    requires ProcessMessage(d, raw, channelId, channelName, parse).Success?
    ensures var d1 := ProcessMessage(d, raw, channelId, channelName, parse).value;
            ProcessMessage(d1, raw, channelId, channelName, parse) == Success(d1)
  {
  }

  /** The number of entries equals the length of the iteration order. */
  lemma {:induction false} EntryCount(d: MessageData)
    ensures |d.entries| == |d.order|
  {
    DistinctCard(d.order);
    assert d.entries.Keys == set k | k in d.order;
  }

  lemma {:induction false} DistinctCard<T>(s: seq<T>)
    requires NoDuplicates(s)
    ensures |set x | x in s| == |s|
  {
    if |s| > 0 {
      var init := s[..|s| - 1];
      var last := s[|s| - 1];
      assert NoDuplicates(init);
      DistinctCard(init);
      assert last !in init;
      assert (set x | x in s) == (set x | x in init) + {last} by {
        assert s == init + [last];
      }
    }
  }
}

=== FILE: upsert.dfy ===
/**
  The look-up-then-insert-or-update loop shared by the three `Db.insert_*`
  methods of main.py, over a table modelled as a map from primary key to the
  non-key columns. Rows are applied one after the other in one session, so a
  row whose key was inserted earlier in the same batch is found and updated.
  `refresh(old, new)` is what an existing row becomes when a batch row with its
  key arrives: the columns the method overwrites come from `new`, the others
  stay as in `old`.
 */
module Upsert {
  import opened Basics

  datatype Row<K, V> = Row(key: K, fields: V)

  /** The keys a batch mentions. */
  function KeysOf<K(==), V>(rows: seq<Row<K, V>>): set<K>
    decreases |rows|
  {
    if |rows| == 0 then {} else {rows[0].key} + KeysOf(rows[1..])
  }

  /** The fields of the last row with key `k`: the one whose update survives the batch. */
  function LastFields<K(==), V>(rows: seq<Row<K, V>>, k: K): V
    requires k in KeysOf(rows)
    decreases |rows|
  {
    if k in KeysOf(rows[1..]) then LastFields(rows[1..], k) else rows[0].fields
  }

  /** The fields of the first row with key `k`: the one that inserts a new key. */
  function FirstFields<K(==), V>(rows: seq<Row<K, V>>, k: K): V
    requires k in KeysOf(rows)
    decreases |rows|
  {
    if rows[0].key == k then rows[0].fields else FirstFields(rows[1..], k)
  }

  /** The laws an overwrite of chosen columns obeys: a later overwrite subsumes
      an earlier one, and overwriting a row with itself changes nothing. */
  ghost predicate OverwriteLaws<V(!new)>(refresh: (V, V) -> V) {
    && (forall a, x, y :: refresh(refresh(a, x), y) == refresh(a, y))
    && (forall a :: refresh(a, a) == a)
  }

  /** One iteration of the loop: `session.get` by key, then update or add. */
  function UpsertRow<K(==), V>(t: map<K, V>, row: Row<K, V>, refresh: (V, V) -> V): (t': map<K, V>)
    ensures t'.Keys == t.Keys + {row.key}
    ensures forall k :: k in t && k != row.key ==> t'[k] == t[k]
  {
    if row.key in t then t[row.key := refresh(t[row.key], row.fields)]
    else t[row.key := row.fields]
  }

  /** The whole loop over a batch, before the commit. */
  function ApplyRows<K(==), V>(t: map<K, V>, rows: seq<Row<K, V>>, refresh: (V, V) -> V): map<K, V>
    decreases |rows|
  {
    if |rows| == 0 then t else ApplyRows(UpsertRow(t, rows[0], refresh), rows[1..], refresh)
  }

  lemma {:induction false} KeysOfMembers<K, V>(rows: seq<Row<K, V>>, k: K)
    ensures k in KeysOf(rows) <==> exists i :: 0 <= i < |rows| && rows[i].key == k
    decreases |rows|
  {
    if |rows| > 0 {
      KeysOfMembers(rows[1..], k);
      if k in KeysOf(rows[1..]) {
        var i :| 0 <= i < |rows[1..]| && rows[1..][i].key == k;
        assert rows[i + 1].key == k;
      }
      if exists i :: 0 <= i < |rows| && rows[i].key == k {
        var i :| 0 <= i < |rows| && rows[i].key == k;
        if i > 0 {
          assert rows[1..][i - 1].key == k;
        }
      }
    }
  }

  /** The batch adds exactly the keys it mentions, and leaves every key it does
      not mention as it was. */
  lemma {:induction false} ApplyRowsFrame<K, V>(t: map<K, V>, rows: seq<Row<K, V>>, refresh: (V, V) -> V)
    ensures ApplyRows(t, rows, refresh).Keys == t.Keys + KeysOf(rows)
    ensures forall k :: k in t && k !in KeysOf(rows) ==> ApplyRows(t, rows, refresh)[k] == t[k]
    decreases |rows|
  {
    if |rows| > 0 {
      ApplyRowsFrame(UpsertRow(t, rows[0], refresh), rows[1..], refresh);
    }
  }

  /** A key the batch mentions ends with the last row's fields refreshed over
      what it started with: its old row if it existed, else the first batch row
      that inserted it. */
  lemma {:induction false} ApplyRowsValue<K, V(!new)>(t: map<K, V>, rows: seq<Row<K, V>>, refresh: (V, V) -> V, k: K)
    requires OverwriteLaws(refresh)
    requires k in KeysOf(rows)
    ensures k in ApplyRows(t, rows, refresh)
    ensures ApplyRows(t, rows, refresh)[k] ==
      refresh(if k in t then t[k] else FirstFields(rows, k), LastFields(rows, k))
    decreases |rows|
  {
    var t1 := UpsertRow(t, rows[0], refresh);
    var rest := rows[1..];
    ApplyRowsFrame(t1, rest, refresh);
    if k in KeysOf(rest) {
      ApplyRowsValue(t1, rest, refresh, k);
    }
  }

  /** Applying a batch twice leaves the table as applying it once. */
  lemma ApplyRowsIdempotent<K, V(!new)>(t: map<K, V>, rows: seq<Row<K, V>>, refresh: (V, V) -> V)
    requires OverwriteLaws(refresh)
    ensures ApplyRows(ApplyRows(t, rows, refresh), rows, refresh) == ApplyRows(t, rows, refresh)
  {
    var t1 := ApplyRows(t, rows, refresh);
    var t2 := ApplyRows(t1, rows, refresh);
    ApplyRowsFrame(t, rows, refresh);
    ApplyRowsFrame(t1, rows, refresh);
    forall k | k in KeysOf(rows)
      ensures t2[k] == t1[k]
    {
      ApplyRowsValue(t, rows, refresh, k);
      ApplyRowsValue(t1, rows, refresh, k);
    }
    assert t2.Keys == t1.Keys;
  }

  /** The last row with its key, read by index. */
  lemma {:induction false} LastFieldsAt<K, V>(rows: seq<Row<K, V>>, i: nat)
    requires i < |rows|
    requires forall j :: i < j < |rows| ==> rows[j].key != rows[i].key
    ensures rows[i].key in KeysOf(rows)
    ensures LastFields(rows, rows[i].key) == rows[i].fields
    decreases |rows|
  {
    KeysOfMembers(rows, rows[i].key);
    KeysOfMembers(rows[1..], rows[i].key);
    if i > 0 {
      LastFieldsAt(rows[1..], i - 1);
    }
  }

  /** The first row with its key, read by index. */
  lemma {:induction false} FirstFieldsAt<K, V>(rows: seq<Row<K, V>>, i: nat)
    requires i < |rows|
    requires forall j :: 0 <= j < i ==> rows[j].key != rows[i].key
    ensures rows[i].key in KeysOf(rows)
    ensures FirstFields(rows, rows[i].key) == rows[i].fields
    decreases |rows|
  {
    KeysOfMembers(rows, rows[i].key);
    if i > 0 {
      FirstFieldsAt(rows[1..], i - 1);
    }
  }

  /** How a batch ends: committed, skipped because it was empty, or rolled back. */
  datatype Outcome = Committed | Skipped | RolledBack(error: string)

  datatype Written<K, V> = Written(table: map<K, V>, outcome: Outcome)

  /** An `insert_*` method: an empty batch returns at once; otherwise the rows
      are applied and committed, unless the store raises (`fault`), in which case
      the session is rolled back and the table keeps its contents. */
  function InsertBatch<K(==), V>(t: map<K, V>, rows: seq<Row<K, V>>, refresh: (V, V) -> V, fault: Option<string>)
    : (w: Written<K, V>)
    ensures |rows| == 0 ==> w == Written(t, Skipped)
    ensures |rows| > 0 && fault.Some? ==> w == Written(t, RolledBack(fault.value))
    ensures |rows| > 0 && fault.None? ==>
      && w.outcome == Committed
      && w.table.Keys == t.Keys + KeysOf(rows)
      && (forall k :: k in t && k !in KeysOf(rows) ==> w.table[k] == t[k])
  {
    if |rows| == 0 then Written(t, Skipped)
    else if fault.Some? then Written(t, RolledBack(fault.value))
    else
      ApplyRowsFrame(t, rows, refresh);
      Written(ApplyRows(t, rows, refresh), Committed)
  }
}
